=== FILE: README.md ===
# rhasspy-g2p-hermes, modelled in Dafny

This project models the resolution core of the Rhasspy grapheme-to-phoneme
Hermes service. A `G2pPronounce` request names some words. The service
answers with a `G2pPhonemes` reply that maps words to pronunciations, or
with a `G2pError` reply.

- **Dictionary lookup.** Pronunciations come first from phonetic
  dictionary files (CMU or Julius style). The files are parsed line by line
  into a word index, and the index is cached.
- **Guessing.** When the lookup leaves words uncovered, the service runs a
  grapheme-to-phoneme tool (phonetisaurus) once per model and reads its
  `word P1 P2 ...` output.
- **Reload watcher.** A background watcher compares each dictionary file's
  modification time with a recorded baseline on every tick. It drops the
  cached index when a file changed.

The model is pure and functional. `handle_pronounce`, `lookup_words`, `guess_words`, one tick of
`poll_dictionaries` and `_check_siteId` each have a module of their own, on top of shared text and
message modules:

| module | file | what it holds |
|---|---|---|
| `Wrappers` | `wrappers.dfy` | `Option` and `Result` |
| `Sequences` | `sequences.dfy` | counting, repetition, element sets, cardinality facts |
| `Text` | `text.dfy` | Python's `strip`, `re.split` on runs, `find`, `split` and `join` for one-character separators, with their round trips |
| `Messages` | `messages.dfy` | the four payload types of `rhasspyg2p_hermes/messages.py` |
| `LineParser` | `line_parser.dfy` | one dictionary line to its entries |
| `DictionaryStore` | `dictionary_store.dfy` | building the index, its cache, and filtered lookup |
| `Guesser` | `guesser.dfy` | running the models and parsing their output, and the `dict()` of the guesses |
| `Resolver` | `resolver.dfy` | `handle_pronounce`: lookup, the guessing guard, the merge, and error replies |
| `ReloadWatcher` | `reload_watcher.dfy` | one tick of `poll_dictionaries` |
| `SiteAdmission` | `site_admission.dfy` | `_check_siteId` |
| `Scenarios` | `scenarios.dfy` | whole-pipeline consequences, including the repository's lookup test stated for every dictionary of its shape |

The outside world enters only through parameters:

- A dictionary file is its list of lines, or the reason it cannot be opened.
- The guessing tool is a function from model id, word set and guess count
  to the tool's output lines, or to a failure.
- A watcher tick receives, for each registered dictionary, whether its file
  is missing, its modification time in nanoseconds, or that reading the
  time raised.
- Python's notion of whitespace (`str.strip`, `\s`) is a predicate
  `isSpace`. The dictionary tokeniser's own separators are exactly space and
  tab, as in the source.

Behaviours of the code that are easy to miss:

- `dictionaries: None` skips the dictionary lookup entirely, whether or not
  dictionaries are registered (`rhasspyg2p_hermes/__init__.py:53-57`).
- Requested dictionary ids that are not registered are not an error. They
  only narrow the filter, and may select nothing (`__init__.py:96`, `158`).
- The guessing guard compares the number of words found with the number of
  words requested, duplicates included (`__init__.py:60`). A word requested
  twice therefore opens the guard even when the dictionary has it. The
  guesser then runs over an empty word list (`Scenarios.DuplicateWordConsultsGuesser`,
  `Scenarios.DuplicateSilentTool`). An unknown model in such a request is
  still reported (`Scenarios.DuplicateMissingModel`).
- A guess replaces a dictionary hit for the same word (`{**phonemes, **guesses}`,
  `__init__.py:70`).
- `dict()` over the guesses keeps a single pronunciation per word, the last
  one. A guessed value in the reply is therefore one pronunciation, not a
  list. `Messages.WordPhonemes` has one variant for each shape.
- A stat that raises part way through a watcher tick ends the tick. The
  baseline updates made so far are kept, and the reload flag of that tick
  is lost (`__main__.py:138-160`).

## Model

| member | source | states |
|---|---|---|
| `SiteAdmission.CheckSiteId` | rhasspyg2p_hermes/__init__.py:259-264 | with no configured sites every payload is admitted; otherwise a payload is admitted exactly when its siteId, `"default"` when the key is absent, is configured |
| `SiteAdmission.AdmissionMatchesRequest` | rhasspyg2p_hermes/messages.py:19 | the admission test agrees with the siteId of the decoded request, whose default is the same `"default"` |
| `SiteAdmission.AdmissionMonotone` | rhasspyg2p_hermes/__init__.py:260-261 | configuring more sites never turns away a payload that a non-empty configuration admitted |
| `Text.Strip` | rhasspyg2p_hermes/__init__.py:114 | the result is the middle slice of the line between an all-whitespace prefix and an all-whitespace suffix; it is empty exactly when the line is all whitespace, and otherwise starts and ends with non-whitespace |
| `Text.SplitRuns` | rhasspyg2p_hermes/__init__.py:120 | splitting on separator runs gives at least one piece and no piece contains a separator (with `SplitRunsKeepsText` and `SplitRunsInterleave` for the contents) |
| `Text.SplitRunsInterleave` | rhasspyg2p_hermes/__init__.py:120 | non-empty, separator-free pieces separated by separator runs of any lengths split back into exactly those pieces |
| `Text.JoinInterleaves` | rhasspyg2p_hermes/__init__.py:120 | joining with one character is the special case of separating by runs of length one |
| `Text.SplitRunsKeepsText` | rhasspyg2p_hermes/__init__.py:120 | the pieces, laid end to end, are exactly the text with its separators removed |
| `Text.SplitRunsJoin` | rhasspyg2p_hermes/__init__.py:120 | splitting non-empty, separator-free pieces joined by one separator gives the pieces back |
| `Text.StripPadded` | rhasspyg2p_hermes/__init__.py:114 | stripping text that has non-whitespace ends, followed by whitespace, gives that text back |
| `Text.IndexOf` | rhasspyg2p_hermes/__init__.py:126 | `find` is absent exactly when the character does not occur, and otherwise is its first occurrence |
| `Text.SplitOn` | rhasspyg2p_hermes/__init__.py:132 | `split('+')` gives at least one piece and no piece holds the separator |
| `Text.JoinSplitOn` | rhasspyg2p_hermes/__init__.py:132 | joining the pieces of a split restores the string |
| `Text.SplitOnJoin` | rhasspyg2p_hermes/__init__.py:132 | splitting a join of separator-free pieces restores the pieces |
| `LineParser.KeepPhonemes` | rhasspyg2p_hermes/__init__.py:124 | the kept tokens are exactly the non-annotation tokens; any empty token makes the whole line fail |
| `LineParser.KeepPhonemesAppend` | rhasspyg2p_hermes/__init__.py:124 | dropping annotations distributes over concatenation of token lists |
| `LineParser.KeepPhonemesDropsAnnotation` | rhasspyg2p_hermes/__init__.py:124 | an annotation between plain phonemes is removed and the phonemes around it keep their order |
| `LineParser.StripVariant` | rhasspyg2p_hermes/__init__.py:126-128 | the word is cut before its first `(` unless that `(` is the first character; the kept part is a prefix without `(` |
| `LineParser.WordsOf` | rhasspyg2p_hermes/__init__.py:126-134 | the words of a token, re-joined with `+`, give the token without its variant suffix, and no word holds `+` |
| `LineParser.ParseLine` | rhasspyg2p_hermes/__init__.py:113-147 | a blank line gives no entries; a line fails only when one of its phoneme tokens is empty; all entries of a line share one phoneme list |
| `LineParser.ParsedEntries` | rhasspyg2p_hermes/__init__.py:120-146 | a parsed non-blank line has at least one entry; its words re-joined give the first token without its suffix; its phonemes are exactly the first token's followers with annotations dropped, each well-formed and taken from the line |
| `LineParser.ParseLineNeverFails` | rhasspyg2p_hermes/__init__.py:118-124 | once stripping removes spaces and tabs, no token is empty, so the first-character test never raises and no line is skipped |
| `LineParser.JoinedTokens` | rhasspyg2p_hermes/__init__.py:114-120 | non-empty whitespace-free tokens joined by single spaces, plus trailing whitespace, tokenise back to themselves |
| `LineParser.SpacedTokens` | rhasspyg2p_hermes/__init__.py:114-120 | the same for tokens separated by runs of spaces and tabs of any lengths |
| `LineParser.ParseSpacedLine` | rhasspyg2p_hermes/__init__.py:113-146 | such a line parses to one entry per word of its first token, each with the first token's followers minus annotations as phonemes |
| `LineParser.ParseRenderLine` | rhasspyg2p_hermes/__init__.py:113-146 | round trip: an entry written as `word P1 P2 ...` plus a newline parses back to exactly that entry |
| `LineParser.ParsePlainTokens` | rhasspyg2p_hermes/__init__.py:120-136 | a line of well-formed tokens yields one entry per word of its first token, each with the kept phonemes |
| `LineParser.ParseVariantLine` | rhasspyg2p_hermes/__init__.py:126-128 | a numbered variant `w(n)` is indexed under `w`, whatever follows the `(` |
| `LineParser.ParseCompoundLine` | rhasspyg2p_hermes/__init__.py:130-146 | a Julius compound `w1+...+wn` gives one entry per part, in order, all with the same phonemes |
| `LineParser.ParseAnnotatedLine` | rhasspyg2p_hermes/__init__.py:123-124 | a Julius annotation among the phonemes is dropped and the entry keeps the other phonemes in order |
| `DictionaryStore.LinePronunciations` | rhasspyg2p_hermes/__init__.py:136-147 | a failing line adds nothing; a parsed line adds its entries in order, same words and phonemes, each tagged with its file's dictionary id and no model id |
| `DictionaryStore.AddPronunciation` | rhasspyg2p_hermes/__init__.py:138-146 | appending one pronunciation extends only its own word's list, by exactly that pronunciation |
| `DictionaryStore.AddAllAppends` | rhasspyg2p_hermes/__init__.py:136-146 | each word's list becomes its old list followed by that word's pronunciations in input order; a word gains a key exactly when it has one |
| `DictionaryStore.AddAllConcat` | rhasspyg2p_hermes/__init__.py:113-146 | appending two runs of pronunciations one after the other equals appending their concatenation |
| `DictionaryStore.LoadLinesAppends` | rhasspyg2p_hermes/__init__.py:112-148 | loading a file line by line appends that file's entry stream to the index |
| `DictionaryStore.BuildFrom` | rhasspyg2p_hermes/__init__.py:100-151 | the build succeeds exactly when every file can be opened; otherwise it fails with the first unopenable file |
| `DictionaryStore.BuildFromAppends` | rhasspyg2p_hermes/__init__.py:100-151 | a successful build appends the entries of all files in registration order |
| `DictionaryStore.BuildIndexGroupsStream` | rhasspyg2p_hermes/__init__.py:99-151 | the built index groups the entry stream by word, in file-then-line order; every entry is for its key, from a registered dictionary, and from no model |
| `DictionaryStore.Matching` | rhasspyg2p_hermes/__init__.py:156-159 | the filtered entries are exactly those of the word's list whose dictionary id is allowed, and no more than the list has |
| `DictionaryStore.MatchingOne` | rhasspyg2p_hermes/__init__.py:158-159 | one entry is kept exactly when its dictionary id is allowed |
| `DictionaryStore.MatchingAppend` | rhasspyg2p_hermes/__init__.py:156-159 | filtering distributes over concatenation, so the kept entries keep the list's order |
| `DictionaryStore.GatherFromWord` | rhasspyg2p_hermes/__init__.py:154-159 | gathering appends to each word's list its allowed entries once for every time the word is requested |
| `DictionaryStore.Gather` | rhasspyg2p_hermes/__init__.py:153-161 | a word is a key exactly when it was requested and has an allowed entry; its list repeats those entries once per request |
| `DictionaryStore.DictionaryFilter` | rhasspyg2p_hermes/__init__.py:96 | an id is allowed exactly when it is requested, or, when the list is empty, exactly when some registered dictionary has it |
| `DictionaryStore.LookupWords` | rhasspyg2p_hermes/__init__.py:92-161 | a usable cache is served without reading files; an empty or absent cache is rebuilt, and a failed rebuild leaves it alone; the hits are exactly the gathering of the requested words over the resulting cache with the dictionary filter |
| `DictionaryStore.RepeatMembers` | rhasspyg2p_hermes/__init__.py:155-159 | every gathered list is non-empty, for a requested word, and drawn from the index's allowed entries |
| `Guesser.ParseGuessLine` | rhasspyg2p_hermes/__init__.py:204-211 | a tool output line gives nothing exactly when it is blank; otherwise a non-empty word and non-empty phonemes, none holding whitespace |
| `Guesser.ParseSpacedGuessLine` | rhasspyg2p_hermes/__init__.py:204-211 | tokens separated by whitespace runs of any lengths, plus trailing whitespace, read back as the guess of the first token with the rest as phonemes |
| `Guesser.GuessLineKeepsText` | rhasspyg2p_hermes/__init__.py:206-211 | the word and phonemes of a parsed line are exactly its whitespace-free text, split where the whitespace was |
| `Guesser.ParseGuessLineRender` | rhasspyg2p_hermes/__init__.py:204-211 | round trip: a guess printed as `word P1 P2 ...` with trailing whitespace reads back as that guess |
| `Guesser.GuessesOf` | rhasspyg2p_hermes/__init__.py:205-211 | at most one guess per line, and every guess has a non-empty, whitespace-free word |
| `Guesser.GuessesOfLine` | rhasspyg2p_hermes/__init__.py:205-211 | one blank line gives no guess, and a non-blank one gives exactly its parsed guess |
| `Guesser.GuessesOfAppend` | rhasspyg2p_hermes/__init__.py:205-211 | the guesses of two blocks of output lines are those of the first, then those of the second |
| `Guesser.ModelsToUse` | rhasspyg2p_hermes/__init__.py:178 | an empty model list means every registered model |
| `Guesser.PairsOf` | rhasspyg2p_hermes/__init__.py:212-217 | one pair per guess, keyed by its word and tagged with the model and no dictionary |
| `Guesser.GuessWith` | rhasspyg2p_hermes/__init__.py:177-217 | guessing succeeds exactly when every model is registered and its tool succeeds; otherwise the error is that of the first model that fails; on success the pairs are each model's output guesses in model order, tagged with that model |
| `Guesser.FirstFaultWins` | rhasspyg2p_hermes/__init__.py:179-199 | the first model that is missing or whose tool fails decides the error, whatever the later models would do |
| `Guesser.ModelPairsShape` | rhasspyg2p_hermes/__init__.py:212-217 | every pair is keyed by its pronunciation's non-empty word and tagged with one of the models and no dictionary |
| `Guesser.ModelPairsCons` | rhasspyg2p_hermes/__init__.py:179-217 | the pairs of a model followed by others are that model's pairs, then the others' |
| `Guesser.ModelPairsAppend` | rhasspyg2p_hermes/__init__.py:179-217 | running two model lists one after the other yields the pairs of the first, then those of the second |
| `Guesser.ModelPairsAvoid` | rhasspyg2p_hermes/__init__.py:179-217 | when no model guesses a word, no pair is for that word |
| `Guesser.LaterModelWins` | rhasspyg2p_hermes/__init__.py:63-67 | `dict` over the pairs keeps, for a word, the last guess for it from the last model that guessed it, tagged with that model |
| `Guesser.LastWinsMiddle` | rhasspyg2p_hermes/__init__.py:63-67 | a word keeps the value of its last pair in a middle block when no later pair is for it |
| `Guesser.LastWins` | rhasspyg2p_hermes/__init__.py:63-67 | `dict(pairs)` has a key exactly for the words of the pairs |
| `Guesser.LastWinsKeepsLast` | rhasspyg2p_hermes/__init__.py:63-67 | the value kept for a word is that of its last pair |
| `Guesser.LastWinsFromPairs` | rhasspyg2p_hermes/__init__.py:63-67 | every kept value comes from a pair for that very word |
| `Resolver.Merge` | rhasspyg2p_hermes/__init__.py:70 | the merged keys are those of both maps, and a guess replaces a dictionary hit for the same word |
| `Resolver.DictionaryStep` | rhasspyg2p_hermes/__init__.py:52-57 | with no dictionary list the lookup is skipped, finds nothing and leaves the cache alone; with one, a non-empty cache is kept, an absent or empty one is replaced by the index built from the files, and a file that cannot be read is an error that keeps the old cache; the hits are exactly the gathering of the requested words, duplicates included, from the dictionaries the list selects (every registered one when it is empty) |
| `Resolver.Unknown` | rhasspyg2p_hermes/__init__.py:62 | the words sent to the guesser are exactly the requested words without a hit |
| `Resolver.HandlePronounce` | rhasspyg2p_hermes/__init__.py:45-88 | the reply echoes id, siteId and sessionId; an error reply carries the comma-joined words as context; no dictionary list leaves the cache alone; no model list means no guessed values; listed values are non-empty cache entries for requested words; a guessed value is what `dict` keeps for that word over the pairs of the models used, run on the words the lookup missed; an unreadable dictionary and the kept or rebuilt cache are stated in `UnreadableDictionaryReported` and `RequestCache` |
| `Resolver.ListedFollowsRequest` | rhasspyg2p_hermes/__init__.py:53-54 | with a dictionary list, every dictionary value in the reply is exactly what the lookup gathers for that word from the selected dictionaries: its matching entries once per time the word is requested |
| `Resolver.UnreadableDictionaryReported` | rhasspyg2p_hermes/__init__.py:78-88 | when the index must be built and a dictionary file cannot be read, the reply is the error reply for that failure, with the words as context, and the cache is left as it was |
| `Resolver.RequestCache` | rhasspyg2p_hermes/__init__.py:99-151 | with a dictionary list, a non-empty cache survives the request, and an absent or empty one becomes the freshly built index even when the guessing step then fails |
| `Resolver.Answer` | rhasspyg2p_hermes/__init__.py:60-70 | with the guard closed the answer is the hits alone; otherwise every hit word stays a key, a listed value is the hit itself, and a guessed value is what `dict` keeps over the models' pairs |
| `Resolver.MissingWordTripsGuard` | rhasspyg2p_hermes/__init__.py:60-62 | if some requested word has no hit, the guard's count test opens |
| `Resolver.CoveredRequestSkipsGuesser` | rhasspyg2p_hermes/__init__.py:60 | when distinct requested words are all found, the reply does not depend on the guessing tool and holds exactly those words as dictionary hits |
| `Resolver.CoveredGuardCloses` | rhasspyg2p_hermes/__init__.py:60 | when distinct requested words are all found, the hit keys are exactly the requested words and the guard stays closed |
| `Resolver.ClosedGuardReply` | rhasspyg2p_hermes/__init__.py:60-77 | with the guard closed, the reply is the hits alone, as dictionary values, with the lookup's cache |
| `Resolver.GuessesOverrideHits` | rhasspyg2p_hermes/__init__.py:60-70 | once the guard opens, a guesser failure is the error reply, and otherwise every guessed word replaces its dictionary value |
| `Resolver.LastModelsGuessAnswers` | rhasspyg2p_hermes/__init__.py:60-70 | end to end: when every model runs, a word some model guessed is answered with the last guess for it from the last model that guessed it |
| `Resolver.MissingModelReported` | rhasspyg2p_hermes/__init__.py:178-180 | a request naming an unregistered model fails with `Missing G2P model` and the first such model, when the models before it ran |
| `Resolver.ErrorContextRecoversWords` | rhasspyg2p_hermes/__init__.py:87 | when no word holds a comma, the error context split on commas gives the request words back |
| `Resolver.EmptyDictionaryListMeansAll` | rhasspyg2p_hermes/__init__.py:96 | an empty dictionary list selects the same lookup as listing every registered id |
| `Resolver.EmptyListMeansAll` | rhasspyg2p_hermes/messages.py:22-32 | empty model and dictionary lists behave exactly like listing every registered one |
| `Resolver.DefaultRequest` | rhasspyg2p_hermes/messages.py:13-35 | a request with default fields is answered with id `""`, siteId `"default"` and sessionId `""`, and consults every registered dictionary and model |
| `ReloadWatcher.ScanFrom` | rhasspyg2p_hermes/__main__.py:139-153 | the scan completes exactly when no stat raises; an aborted scan loses the reload flag; a completed one keeps a flag already raised |
| `ReloadWatcher.Tick` | rhasspyg2p_hermes/__main__.py:139-160 | a tick either keeps the cached index or drops it (exactly when, in `TickDropsIff`) |
| `ReloadWatcher.TickDropsIff` | rhasspyg2p_hermes/__main__.py:139-157 | with each dictionary seen once and no stat raising, a tick drops the cache exactly when some existing file's time differs from its recorded baseline; a file seen for the first time is only recorded |
| `ReloadWatcher.LastStamp` | rhasspyg2p_hermes/__main__.py:140-153 | the stamp a scan leaves for an id comes from an observation of that id's file, and is absent only when the file was never seen |
| `ReloadWatcher.ScanBaselineAt` | rhasspyg2p_hermes/__main__.py:140-153 | after a complete scan each id's baseline is its last observed time; a file missing throughout keeps its old entry |
| `ReloadWatcher.ScanReloadIff` | rhasspyg2p_hermes/__main__.py:139-155 | with each dictionary seen once, the reload flag rises exactly when some existing file's time differs from its baseline |
| `ReloadWatcher.ScanAbortKeepsPrefix` | rhasspyg2p_hermes/__main__.py:138-160 | a scan that raises keeps exactly the baseline updates made before the failing dictionary |
| `ReloadWatcher.StatFailureKeepsCache` | rhasspyg2p_hermes/__main__.py:155-160 | a stat failure anywhere in a tick means the cache is not dropped |
| `ReloadWatcher.FirstTickOnlyRecords` | rhasspyg2p_hermes/__main__.py:134-147 | the first tick only records baselines and never drops the cache |
| `ReloadWatcher.StableTickIsNoop` | rhasspyg2p_hermes/__main__.py:140-157 | a tick in which every existing file matches its baseline changes nothing |
| `ReloadWatcher.RepeatedTickIsNoop` | rhasspyg2p_hermes/__main__.py:136-157 | ticking again over the same observations changes nothing |
| `ReloadWatcher.ChangeForcesRebuild` | rhasspyg2p_hermes/__main__.py:155-157 | a tick that sees a changed file drops the cache, and the next lookup rebuilds the index from every file |
| `ReloadWatcher.WatcherEnabled` | rhasspyg2p_hermes/__main__.py:96-102 | the watcher runs exactly when a reload interval is given, it is not zero, and at least one dictionary is registered |
| `Scenarios.PrintedFileReadsBack` | rhasspyg2p_hermes/__init__.py:112-146 | a file printed one entry per line reads back as exactly those entries, in order, tagged with the file's id |
| `Scenarios.PrintedIndex` | rhasspyg2p_hermes/__init__.py:99-151 | the index of such a file with distinct words holds exactly the one entry for each word |
| `Scenarios.GatherTwice` | rhasspyg2p_hermes/__init__.py:153-161 | a word requested twice gets its one entry twice |
| `Scenarios.LookupTwo` | rhasspyg2p_hermes/__init__.py:45-77 | with an empty cache and default fields, two distinct words with one entry each give exactly those two listed values, and the index is cached |
| `Scenarios.LookupPrinted` | tests/test_rhasspyg2p_hermes.py:11-40 | for any printed dictionary with distinct words, looking up two of its words gives exactly those two words with their single dictionary entry |
| `Scenarios.LookupFooBar` | tests/test_rhasspyg2p_hermes.py:11-40 | the repository's lookup test: `foo` and `bar` give two keys, and `foo` maps to `F O O` from the file, with no model |
| `Scenarios.DuplicateLookup` | rhasspyg2p_hermes/__init__.py:60-70 | a word requested twice with one entry opens the guard with nothing unknown, and a guess the tool prints for it replaces the hit (this tool prints a guess for an empty word list, which phonetisaurus does not) |
| `Scenarios.DuplicateWordConsultsGuesser` | rhasspyg2p_hermes/__init__.py:60-70 | the same, for a printed one-entry dictionary file: the hit list is the entry twice, the guesser runs over no words, and its guess becomes the reply |
| `Scenarios.SilentModel` | rhasspyg2p_hermes/__init__.py:179-217 | a registered model whose tool prints nothing contributes no pairs |
| `Scenarios.DuplicateSilentTool` | rhasspyg2p_hermes/__init__.py:60-70 | with a tool that prints nothing for an empty word list, a word requested twice with one entry is answered with that entry listed twice |
| `Scenarios.DuplicateMissingModel` | rhasspyg2p_hermes/__init__.py:60-70 | a word requested twice with one entry still opens the guard, so naming a model the service does not have fails with `Missing G2P model` |

## Left out

- MQTT transport: subscribing, JSON decoding and encoding of payloads, and
  publishing (`on_connect`, `on_message`, `publish`). Only the siteId test
  applied to the decoded payload is modelled.
- `on_message` builds the request with `G2pPronounce(**json_payload)`. A
  payload with unknown keys or a null siteId is not modelled; payloads are
  taken as already decoded.
- Temporary word-list and output files, and the `phonetisaurus-apply`
  command line, are abstracted into the `Tool` parameter. The word set, the
  model id and the guess count are passed on, not written to a file.
- File input and output: a dictionary file is its lines, or the reason it
  cannot be opened. A file that becomes unreadable part way through is not
  modelled. Line-level logging is left out.
- Thread scheduling between the watcher and request handling is left out.
  The two share only the cached index, and a tick and a request are each
  modelled as one atomic step.
- The watcher's sleep loop, its `except` that keeps the thread alive, and
  logging are left out. `Tick` is one pass of the loop body, and the
  baseline is threaded through by the caller.
- Command-line parsing (`main`) is left out, except for the condition that
  starts the watcher (`WatcherEnabled`).
- The `assert` statements in `lookup_words` and `guess_words` are modelled
  as always active. Under `python -O` the model check at
  `__init__.py:180` would raise a `KeyError` instead, with a different text.
- The exact set of characters `str.strip` and `\s` treat as whitespace is
  the parameter `isSpace`, not a fixed Unicode table.
- Exception texts other than the missing-model message are opaque strings
  taken from the failing file or tool.
- `G2pPronounce.words` defaults to the empty string in the source, which
  iterates like an empty list. The model has only lists of words.
- `numGuesses` is passed to the tool unchanged. Whether the tool honours it
  is outside the model.
- `ReloadWatcher.WatcherEnabled`: the reload interval is a real number.
  Negative intervals, which make Python's `time.sleep` raise, are not
  distinguished.

=== FILE: dictionary_store.dfy ===
/**
 * The pronunciation index built from every registered dictionary file, its
 * cache, and filtered lookups against it.
 */
module DictionaryStore {
  import opened Wrappers
  import opened Sequences
  import opened Messages
  import LineParser

  /** A registered dictionary file as seen when it is opened. */
  datatype FileContents = Readable(lines: seq<string>) | Unreadable(reason: string)

  /** One registration: a dictionary id and its file, in registration order. */
  datatype DictionaryFile = DictionaryFile(id: string, contents: FileContents)

  /** Word to every pronunciation found for it, in file-then-line order. */
  type Index = map<string, seq<Pronunciation>>

  /** The registered dictionary ids, in registration order. */
  function Ids(files: seq<DictionaryFile>): (ids: seq<string>)
    ensures |ids| == |files|
    ensures forall k | 0 <= k < |ids| :: ids[k] == files[k].id
  {
    seq(|files|, k requires 0 <= k < |files| => files[k].id)
  }

  /** `index.get(word, [])`. */
  function Get(index: Index, word: string): seq<Pronunciation>
  {
    if word in index then index[word] else []
  }

  /** The pronunciations of `ps` for `word`, in order: the reference the index is measured against. */
  function PronunciationsOf(ps: seq<Pronunciation>, word: string): (r: seq<Pronunciation>)
    ensures forall k | 0 <= k < |r| :: r[k] in ps && r[k].word == word
  {
    if ps == [] then []
    else (if ps[0].word == word then [ps[0]] else []) + PronunciationsOf(ps[1..], word)
  }

  lemma {:induction false} PronunciationsOfAppend(a: seq<Pronunciation>, b: seq<Pronunciation>, word: string)
    ensures PronunciationsOf(a + b, word) == PronunciationsOf(a, word) + PronunciationsOf(b, word)
    decreases |a|
  {
    if a == [] {
      assert a + b == b;
    } else {
      assert (a + b)[0] == a[0];
      assert (a + b)[1..] == a[1..] + b;
      PronunciationsOfAppend(a[1..], b, word);
      var here := if a[0].word == word then [a[0]] else [];
      AppendAssoc(here, PronunciationsOf(a[1..], word), PronunciationsOf(b, word));
    }
  }

  /** A word no pronunciation of `ps` is for has none of them. */
  lemma {:induction false} PronunciationsOfNone(ps: seq<Pronunciation>, word: string)
    requires forall j | 0 <= j < |ps| :: ps[j].word != word
    ensures PronunciationsOf(ps, word) == []
    decreases |ps|
  {
    if ps != [] {
      assert forall j | 0 <= j < |ps[1..]| :: ps[1..][j] == ps[j + 1];
      PronunciationsOfNone(ps[1..], word);
    }
  }

  /** A word exactly one pronunciation of `ps` is for has exactly that one. */
  lemma {:induction false} PronunciationsOfSingle(ps: seq<Pronunciation>, k: nat)
    requires k < |ps|
    requires forall j | 0 <= j < |ps| && j != k :: ps[j].word != ps[k].word
    ensures PronunciationsOf(ps, ps[k].word) == [ps[k]]
    decreases |ps|
  {
    var rest := ps[1..];
    assert forall j | 0 <= j < |rest| :: rest[j] == ps[j + 1];
    if k == 0 {
      PronunciationsOfNone(rest, ps[0].word);
      assert PronunciationsOf(ps, ps[0].word) == [ps[0]] + [];
    } else {
      assert rest[k - 1] == ps[k];
      PronunciationsOfSingle(rest, k - 1);
    }
  }

  /** The entries one line adds, tagged with its dictionary; a line whose parse fails adds none. */
  function LinePronunciations(id: string, line: string, isSpace: char -> bool): (ps: seq<Pronunciation>)
    ensures forall k | 0 <= k < |ps| :: ps[k].dictionaryId == Some(id) && ps[k].modelId == None
    ensures LineParser.ParseLine(line, isSpace).Failure? ==> ps == []
    ensures LineParser.ParseLine(line, isSpace).Success? ==>
      var es := LineParser.ParseLine(line, isSpace).value;
      |ps| == |es| && forall k | 0 <= k < |es| :: ps[k].word == es[k].word && ps[k].phonemes == es[k].phonemes
  {
    match LineParser.ParseLine(line, isSpace)
    case Failure(_) => []
    case Success(es) =>
      seq(|es|, k requires 0 <= k < |es| => Pronunciation(es[k].word, es[k].phonemes, None, Some(id)))
  }

  /** All entries of one file, line by line. */
  function FilePronunciations(id: string, lines: seq<string>, isSpace: char -> bool): (ps: seq<Pronunciation>)
    ensures forall k | 0 <= k < |ps| :: ps[k].dictionaryId == Some(id) && ps[k].modelId == None
  {
    if lines == [] then []
    else LinePronunciations(id, lines[0], isSpace) + FilePronunciations(id, lines[1..], isSpace)
  }

  /** All entries of all readable files, in registration order. */
  function Stream(files: seq<DictionaryFile>, isSpace: char -> bool): (ps: seq<Pronunciation>)
    ensures forall k | 0 <= k < |ps| ::
      ps[k].modelId == None && ps[k].dictionaryId.Some? && ps[k].dictionaryId.value in Ids(files)
  {
    if files == [] then []
    else
      var head := match files[0].contents
        case Readable(lines) => FilePronunciations(files[0].id, lines, isSpace)
        case Unreadable(_) => [];
      var rest := Stream(files[1..], isSpace);
      assert forall k | 0 <= k < |rest| :: rest[k].dictionaryId.value in Ids(files) by {
        assert forall k | 0 <= k < |files[1..]| :: Ids(files[1..])[k] == Ids(files)[k + 1];
      }
      assert files[0].id == Ids(files)[0];
      head + rest
  }

  /** Appends one pronunciation to its word's list, creating the list if needed. */
  function AddPronunciation(index: Index, p: Pronunciation): (r: Index)
    ensures r.Keys == index.Keys + {p.word}
    ensures Get(r, p.word) == Get(index, p.word) + [p]
    ensures forall w | w != p.word :: Get(r, w) == Get(index, w)
  {
    index[p.word := Get(index, p.word) + [p]]
  }

  /** Appends each pronunciation of `ps` in turn. */
  function AddAll(index: Index, ps: seq<Pronunciation>): Index
    decreases |ps|
  {
    if ps == [] then index
    else AddAll(AddPronunciation(index, ps[0]), ps[1..])
  }

  /** Appending to one word's list leaves every other word's list alone. */
  lemma {:induction false} AddAllWord(index: Index, ps: seq<Pronunciation>, w: string)
    ensures w in AddAll(index, ps) <==> w in index || PronunciationsOf(ps, w) != []
    ensures Get(AddAll(index, ps), w) == Get(index, w) + PronunciationsOf(ps, w)
    decreases |ps|
  {
    if ps != [] {
      var p := ps[0];
      var next := AddPronunciation(index, p);
      var here := if p.word == w then [p] else [];
      var rest := PronunciationsOf(ps[1..], w);
      AddAllWord(next, ps[1..], w);
      assert AddAll(index, ps) == AddAll(next, ps[1..]);
      assert PronunciationsOf(ps, w) == here + rest;
      assert Get(next, w) == Get(index, w) + here;
      assert w in next <==> w in index || here != [];
      AppendAssoc(Get(index, w), here, rest);
    }
  }

  /**
   * Appending only grows lists: each word's list becomes its old list
   * followed by that word's pronunciations in `ps`, and a word gains a key
   * exactly when `ps` has a pronunciation for it.
   */
  lemma AddAllAppends(index: Index, ps: seq<Pronunciation>)
    ensures forall w :: w in AddAll(index, ps) <==> w in index || PronunciationsOf(ps, w) != []
    ensures forall w :: Get(AddAll(index, ps), w) == Get(index, w) + PronunciationsOf(ps, w)
  {
    forall w
      ensures w in AddAll(index, ps) <==> w in index || PronunciationsOf(ps, w) != []
      ensures Get(AddAll(index, ps), w) == Get(index, w) + PronunciationsOf(ps, w)
    {
      AddAllWord(index, ps, w);
    }
  }

  /** Appending two runs of pronunciations one after the other is appending their concatenation. */
  lemma {:induction false} AddAllConcat(index: Index, a: seq<Pronunciation>, b: seq<Pronunciation>)
    ensures AddAll(AddAll(index, a), b) == AddAll(index, a + b)
    decreases |a|
  {
    if a == [] {
      assert a + b == b;
    } else {
      assert (a + b)[0] == a[0];
      assert (a + b)[1..] == a[1..] + b;
      AddAllConcat(AddPronunciation(index, a[0]), a[1..], b);
    }
  }

  /** Reads the lines of one file into the index, line by line, word by word. */
  function LoadLines(index: Index, id: string, lines: seq<string>, isSpace: char -> bool): Index
    decreases |lines|
  {
    if lines == [] then index
    else LoadLines(AddAll(index, LinePronunciations(id, lines[0], isSpace)), id, lines[1..], isSpace)
  }

  /** Loading a file line by line appends that file's entry stream. */
  lemma {:induction false} LoadLinesAppends(index: Index, id: string, lines: seq<string>, isSpace: char -> bool)
    ensures LoadLines(index, id, lines, isSpace) == AddAll(index, FilePronunciations(id, lines, isSpace))
    decreases |lines|
  {
    if lines != [] {
      var first := LinePronunciations(id, lines[0], isSpace);
      LoadLinesAppends(AddAll(index, first), id, lines[1..], isSpace);
      AddAllConcat(index, first, FilePronunciations(id, lines[1..], isSpace));
    }
  }

  /**
   * Loads every file in registration order on top of `index`. Opening an
   * unreadable file raises, abandoning the whole build: the error names the
   * first unreadable file.
   */
  function BuildFrom(index: Index, files: seq<DictionaryFile>, isSpace: char -> bool): (r: Result<Index, Fault>)
    ensures r.Success? <==> forall k | 0 <= k < |files| :: files[k].contents.Readable?
    ensures r.Failure? ==> exists k | 0 <= k < |files| ::
      && files[k].contents.Unreadable?
      && r.error == CannotOpen(files[k].id, files[k].contents.reason)
      && forall j | 0 <= j < k :: files[j].contents.Readable?
    decreases |files|
  {
    if files == [] then Success(index)
    else
      match files[0].contents
      case Unreadable(reason) => Failure(CannotOpen(files[0].id, reason))
      case Readable(lines) =>
        var r := BuildFrom(LoadLines(index, files[0].id, lines, isSpace), files[1..], isSpace);
        assert forall k | 1 <= k < |files| :: files[k] == files[1..][k - 1];
        r
  }

  /** A successful build appends the entry stream of all files, in registration order. */
  lemma {:induction false} BuildFromAppends(index: Index, files: seq<DictionaryFile>, isSpace: char -> bool)
    requires BuildFrom(index, files, isSpace).Success?
    ensures BuildFrom(index, files, isSpace).value == AddAll(index, Stream(files, isSpace))
    decreases |files|
  {
    if files != [] {
      var lines := files[0].contents.lines;
      var first := FilePronunciations(files[0].id, lines, isSpace);
      LoadLinesAppends(index, files[0].id, lines, isSpace);
      BuildFromAppends(AddAll(index, first), files[1..], isSpace);
      AddAllConcat(index, first, Stream(files[1..], isSpace));
    }
  }

  /** A fresh index from all registered files. */
  function BuildIndex(files: seq<DictionaryFile>, isSpace: char -> bool): Result<Index, Fault>
  {
    BuildFrom(map[], files, isSpace)
  }

  /**
   * The built index groups the entry stream by word: a word is a key exactly
   * when some line of some file gave it an entry, and its list holds those
   * entries in file-then-line order, each from a registered dictionary and
   * none from a model.
   */
  lemma BuildIndexGroupsStream(files: seq<DictionaryFile>, isSpace: char -> bool)
    requires BuildIndex(files, isSpace).Success?
    ensures var index := BuildIndex(files, isSpace).value;
      forall w ::
        && (w in index <==> PronunciationsOf(Stream(files, isSpace), w) != [])
        && Get(index, w) == PronunciationsOf(Stream(files, isSpace), w)
    ensures var index := BuildIndex(files, isSpace).value;
      forall w, k | w in index && 0 <= k < |index[w]| ::
        && index[w][k].word == w
        && index[w][k].modelId == None
        && index[w][k].dictionaryId.Some?
        && index[w][k].dictionaryId.value in Ids(files)
  {
    var index: Index := BuildIndex(files, isSpace).value;
    BuildFromAppends(map[], files, isSpace);
    AddAllAppends(map[], Stream(files, isSpace));
    forall w: string, k: int | w in index && 0 <= k < |index[w]|
      ensures index[w][k].word == w && index[w][k].modelId == None
      ensures index[w][k].dictionaryId.Some? && index[w][k].dictionaryId.value in Ids(files)
    {
      assert Get(index, w) == index[w];
      assert index[w][k] in Stream(files, isSpace);
    }
  }

  /** The pronunciations of `ps` that come from one of the dictionaries `ids`, in order. */
  function Matching(ps: seq<Pronunciation>, ids: set<string>): (r: seq<Pronunciation>)
    ensures |r| <= |ps|
    ensures forall k | 0 <= k < |r| :: r[k] in ps && r[k].dictionaryId.Some? && r[k].dictionaryId.value in ids
    ensures forall k | 0 <= k < |ps| && ps[k].dictionaryId.Some? && ps[k].dictionaryId.value in ids :: ps[k] in r
  {
    if ps == [] then []
    else
      var rest := Matching(ps[1..], ids);
      assert forall k | 1 <= k < |ps| :: ps[k] == ps[1..][k - 1];
      (if ps[0].dictionaryId.Some? && ps[0].dictionaryId.value in ids then [ps[0]] else []) + rest
  }

  /** Filtering one pronunciation keeps it exactly when its dictionary is allowed. */
  lemma MatchingOne(p: Pronunciation, ids: set<string>)
    ensures Matching([p], ids) == if p.dictionaryId.Some? && p.dictionaryId.value in ids then [p] else []
  {
    assert [p][1..] == [];
  }

  /** Filtering distributes over concatenation, so the kept pronunciations keep their order. */
  lemma {:induction false} MatchingAppend(a: seq<Pronunciation>, b: seq<Pronunciation>, ids: set<string>)
    ensures Matching(a + b, ids) == Matching(a, ids) + Matching(b, ids)
    decreases |a|
  {
    if a == [] {
      assert a + b == b;
    } else {
      assert (a + b)[0] == a[0];
      assert (a + b)[1..] == a[1..] + b;
      MatchingAppend(a[1..], b, ids);
    }
  }

  /**
   * For each request word in turn, appends its matching index entries to
   * `acc`; a word gains a key only when something is appended.
   */
  function GatherFrom(acc: Index, index: Index, words: seq<string>, ids: set<string>): Index
    decreases |words|
  {
    if words == [] then acc
    else
      var hits := Matching(Get(index, words[0]), ids);
      var next := if hits == [] then acc else acc[words[0] := Get(acc, words[0]) + hits];
      GatherFrom(next, index, words[1..], ids)
  }

  /** One step of `GatherFrom`: the first word's hits are added, then the rest follows. */
  lemma GatherFromStep(acc: Index, index: Index, words: seq<string>, ids: set<string>)
    requires words != []
    ensures var hits := Matching(Get(index, words[0]), ids);
      GatherFrom(acc, index, words, ids)
      == GatherFrom(if hits == [] then acc else acc[words[0] := Get(acc, words[0]) + hits], index, words[1..], ids)
  {
  }

  /** A word is a key of the gathered map when it already was one or it was requested and has hits. */
  lemma {:induction false} GatherFromHas(acc: Index, index: Index, words: seq<string>, ids: set<string>, w: string)
    ensures w in GatherFrom(acc, index, words, ids) <==> w in acc || (w in words && Matching(Get(index, w), ids) != [])
    decreases |words|
  {
    if words != [] {
      var word := words[0];
      var hits := Matching(Get(index, word), ids);
      var next := if hits == [] then acc else acc[word := Get(acc, word) + hits];
      GatherFromStep(acc, index, words, ids);
      GatherFromHas(next, index, words[1..], ids, w);
      assert w in words <==> w == word || w in words[1..];
    }
  }

  /** The gathered list of a word extends its earlier list by one copy of its hits per request. */
  lemma {:induction false} GatherFromWord(acc: Index, index: Index, words: seq<string>, ids: set<string>, w: string)
    ensures w in GatherFrom(acc, index, words, ids) <==> w in acc || (w in words && Matching(Get(index, w), ids) != [])
    ensures Get(GatherFrom(acc, index, words, ids), w)
      == Get(acc, w) + Repeat(Matching(Get(index, w), ids), Count(words, w))
    decreases |words|
  {
    GatherFromHas(acc, index, words, ids, w);
    if words != [] {
      var word := words[0];
      var hits := Matching(Get(index, word), ids);
      var next := if hits == [] then acc else acc[word := Get(acc, word) + hits];
      var m, n := Matching(Get(index, w), ids), Count(words[1..], w);
      GatherFromStep(acc, index, words, ids);
      GatherFromWord(next, index, words[1..], ids, w);
      if w != word {
        assert Count(words, w) == n;
        assert Get(next, w) == Get(acc, w);
      } else {
        assert Count(words, w) == n + 1;
        GatherFromOwnWord(Get(acc, w), m, n, next, w);
      }
    }
  }

  /** The copy of `m` added for the word itself, whether or not `m` is empty. */
  lemma GatherFromOwnWord(before: seq<Pronunciation>, m: seq<Pronunciation>, n: nat, next: Index, w: string)
    requires Get(next, w) == if m == [] then before else before + m
    ensures Get(next, w) + Repeat(m, n) == before + Repeat(m, n + 1)
  {
    if m != [] {
      RepeatPrepend(before, m, n);
    }
  }

  /** One more copy in front of a repetition. */
  lemma RepeatPrepend<T>(a: seq<T>, m: seq<T>, n: nat)
    ensures (a + m) + Repeat(m, n) == a + Repeat(m, n + 1)
  {
    AppendAssoc(a, m, Repeat(m, n));
  }

  /**
   * The filtered lookup: a word is a key exactly when it was requested and
   * has an entry from an allowed dictionary, and its list repeats those
   * entries once per occurrence of the word in the request.
   */
  function Gather(index: Index, words: seq<string>, ids: set<string>): (r: Index)
    ensures forall w :: w in r <==> w in words && Matching(Get(index, w), ids) != []
    ensures forall w | w in r :: r[w] == Repeat(Matching(Get(index, w), ids), Count(words, w))
  {
    var r := GatherFrom(map[], index, words, ids);
    forall w
      ensures w in r <==> w in words && Matching(Get(index, w), ids) != []
      ensures w in r ==> r[w] == Repeat(Matching(Get(index, w), ids), Count(words, w))
    {
      GatherFromWord(map[], index, words, ids, w);
    }
    r
  }

  /** The dictionaries a lookup may draw from: the requested ids, or every registered id when none are named. */
  function DictionaryFilter(requested: seq<string>, files: seq<DictionaryFile>): (ids: set<string>)
    ensures requested != [] ==> ids == Elements(requested)
    ensures requested == [] ==> forall k | 0 <= k < |files| :: files[k].id in ids
    ensures forall id :: id in ids <==>
      if requested == [] then exists k | 0 <= k < |files| :: files[k].id == id else id in requested
  {
    Elements(if requested == [] then Ids(files) else requested)
  }

  /** The index is (re)built when the cache is absent or empty: `not self.dictionary`. */
  predicate NeedsBuild(cache: Option<Index>) {
    cache.None? || |cache.value| == 0
  }

  /** A lookup's new cache and its result. */
  datatype Lookup = Lookup(cache: Option<Index>, hits: Result<Index, Fault>)

  /**
   * Looks `words` up, first rebuilding the index when the cache needs it.
   * A failed rebuild leaves the cache as it was; a successful one replaces
   * it wholesale. A usable cache is served as is, without reading any file.
   */
  function LookupWords(cache: Option<Index>, files: seq<DictionaryFile>, words: seq<string>,
                       requested: seq<string>, isSpace: char -> bool): (r: Lookup)
    ensures !NeedsBuild(cache) ==> r.cache == cache && r.hits.Success?
    ensures NeedsBuild(cache) && BuildIndex(files, isSpace).Failure? ==>
      r == Lookup(cache, Failure(BuildIndex(files, isSpace).error))
    ensures NeedsBuild(cache) && BuildIndex(files, isSpace).Success? ==>
      r.cache == Some(BuildIndex(files, isSpace).value) && r.hits.Success?
    ensures r.hits.Success? ==> r.cache.Some? && forall w | w in r.hits.value ::
      && w in words
      && r.hits.value[w] != []
      && forall k | 0 <= k < |r.hits.value[w]| ::
           r.hits.value[w][k] in Get(r.cache.value, w)
           && r.hits.value[w][k].dictionaryId.Some?
           && r.hits.value[w][k].dictionaryId.value in DictionaryFilter(requested, files)
    ensures r.hits.Success? ==> r.hits.value == Gather(r.cache.value, words, DictionaryFilter(requested, files))
  {
    var ids := DictionaryFilter(requested, files);
    if NeedsBuild(cache) then
      match BuildIndex(files, isSpace)
      case Failure(f) => Lookup(cache, Failure(f))
      case Success(index) =>
        var hits := Gather(index, words, ids);
        RepeatMembers(hits, index, words, ids);
        Lookup(Some(index), Success(hits))
    else
      var hits := Gather(cache.value, words, ids);
      RepeatMembers(hits, cache.value, words, ids);
      Lookup(cache, Success(hits))
  }

  /** Every element of a repetition is an element of the repeated sequence. */
  lemma {:induction false} RepeatElements<T>(s: seq<T>, n: nat)
    ensures forall k | 0 <= k < |Repeat(s, n)| :: Repeat(s, n)[k] in s
    decreases n
  {
    if n > 0 {
      RepeatElements(s, n - 1);
      assert forall k | |s| <= k < |Repeat(s, n)| :: Repeat(s, n)[k] == Repeat(s, n - 1)[k - |s|];
    }
  }

  /** Every gathered list is non-empty, for a requested word, and drawn from allowed dictionaries of the index. */
  lemma RepeatMembers(hits: Index, index: Index, words: seq<string>, ids: set<string>)
    requires hits == Gather(index, words, ids)
    ensures forall w | w in hits ::
      && w in words
      && hits[w] != []
      && forall k | 0 <= k < |hits[w]| ::
           hits[w][k] in Get(index, w)
           && hits[w][k].dictionaryId.Some?
           && hits[w][k].dictionaryId.value in ids
  {
    forall w | w in hits
      ensures hits[w] != []
      ensures forall k | 0 <= k < |hits[w]| ::
        hits[w][k] in Get(index, w) && hits[w][k].dictionaryId.Some? && hits[w][k].dictionaryId.value in ids
    {
      RepeatMatching(Get(index, w), ids, Count(words, w));
    }
  }

  /** At least one repetition of a non-empty match list is non-empty and holds only allowed entries of the list. */
  lemma RepeatMatching(ps: seq<Pronunciation>, ids: set<string>, n: nat)
    requires n >= 1 && Matching(ps, ids) != []
    ensures Repeat(Matching(ps, ids), n) != []
    ensures forall k | 0 <= k < |Repeat(Matching(ps, ids), n)| ::
      && Repeat(Matching(ps, ids), n)[k] in ps
      && Repeat(Matching(ps, ids), n)[k].dictionaryId.Some?
      && Repeat(Matching(ps, ids), n)[k].dictionaryId.value in ids
  {
    var m := Matching(ps, ids);
    RepeatElements(m, n);
    assert Repeat(m, n) == m + Repeat(m, n - 1);
  }
}

=== FILE: guesser.dfy ===
/**
 * Guessing pronunciations with the registered grapheme-to-phoneme models:
 * each model's tool is run over the word list and its `word P1 P2 ...`
 * output lines become (word, pronunciation) pairs.
 */
module Guesser {
  import opened Wrappers
  import opened Text
  import opened Messages
  import opened Sequences

  /** What running the guessing tool with one model gives: its output lines, or a failure. */
  datatype ToolResult = ToolOutput(lines: seq<string>) | ToolFailure(reason: string)

  /** The guessing tool: model id, word list and number of guesses to its result. */
  type Tool = (string, set<string>, int) -> ToolResult

  /** One guess read from a line of tool output. */
  datatype Guess = Guess(word: string, phonemes: seq<string>)

  /**
   * One output line: stripped, then split on whitespace runs into the word
   * and its phonemes. A blank line gives nothing. Unlike dictionary lines,
   * no annotation is dropped and no variant suffix is cut.
   */
  function ParseGuessLine(line: string, isSpace: char -> bool): (r: Option<Guess>)
    ensures r.None? <==> AllSatisfy(line, isSpace)
    ensures r.Some? ==> r.value.word != [] && NoneSatisfy(r.value.word, isSpace)
    ensures r.Some? ==> forall k | 0 <= k < |r.value.phonemes| ::
      r.value.phonemes[k] != [] && NoneSatisfy(r.value.phonemes[k], isSpace)
  {
    var stripped := Strip(line, isSpace);
    if stripped == [] then None
    else
      SplitRunsPiecesNonEmpty(stripped, isSpace);
      var parts := SplitRuns(stripped, isSpace);
      Some(Guess(parts[0], parts[1..]))
  }

  /**
   * The tokens of a parsed line are exactly the whitespace-free text of the
   * line, split where whitespace was.
   */
  lemma GuessLineKeepsText(line: string, isSpace: char -> bool)
    requires ParseGuessLine(line, isSpace).Some?
    ensures var g := ParseGuessLine(line, isSpace).value;
      Concat([g.word] + g.phonemes) == Without(Strip(line, isSpace), isSpace)
  {
    var stripped := Strip(line, isSpace);
    var parts := SplitRuns(stripped, isSpace);
    SplitRunsKeepsText(stripped, isSpace);
    assert [parts[0]] + parts[1..] == parts;
  }

  /**
   * Round trip: a guess written as `word P1 P2 ...` with a single space
   * between tokens, followed by any whitespace, reads back as that guess.
   */
  lemma ParseGuessLineRender(g: Guess, pad: string, isSpace: char -> bool)
    requires isSpace(' ')
    requires g.word != [] && NoneSatisfy(g.word, isSpace)
    requires forall k | 0 <= k < |g.phonemes| :: g.phonemes[k] != [] && NoneSatisfy(g.phonemes[k], isSpace)
    requires AllSatisfy(pad, isSpace)
    ensures ParseGuessLine(Join([g.word] + g.phonemes, ' ') + pad, isSpace) == Some(g)
  {
    var pieces := [g.word] + g.phonemes;
    assert forall k | 0 <= k < |pieces| :: pieces[k] != [] && NoneSatisfy(pieces[k], isSpace);
    var line := Join(pieces, ' ');
    JoinEnds(pieces, ' ');
    StripPadded(line, pad, isSpace);
    SplitRunsJoin(pieces, ' ', isSpace);
    assert pieces[1..] == g.phonemes;
  }

  /**
   * However long the whitespace runs between the tokens of an output line,
   * it reads back as the guess of its first token and the rest.
   */
  lemma ParseSpacedGuessLine(tokens: seq<string>, gaps: seq<string>, pad: string, isSpace: char -> bool)
    requires |tokens| >= 1 && |gaps| == |tokens| - 1
    requires forall k | 0 <= k < |tokens| :: tokens[k] != [] && NoneSatisfy(tokens[k], isSpace)
    requires forall k | 0 <= k < |gaps| :: gaps[k] != [] && AllSatisfy(gaps[k], isSpace)
    requires AllSatisfy(pad, isSpace)
    ensures ParseGuessLine(Interleave(tokens, gaps) + pad, isSpace) == Some(Guess(tokens[0], tokens[1..]))
  {
    var line := Interleave(tokens, gaps);
    InterleaveEnds(tokens, gaps);
    StripPadded(line, pad, isSpace);
    SplitRunsInterleave(tokens, gaps, isSpace);
  }

  /** The guesses of every non-blank output line, in order. */
  function GuessesOf(lines: seq<string>, isSpace: char -> bool): (r: seq<Guess>)
    ensures |r| <= |lines|
    ensures forall k | 0 <= k < |r| :: r[k].word != [] && NoneSatisfy(r[k].word, isSpace)
  {
    if lines == [] then []
    else
      var rest := GuessesOf(lines[1..], isSpace);
      match ParseGuessLine(lines[0], isSpace)
      case None => rest
      case Some(g) => [g] + rest
  }

  /** One output line gives nothing when blank, and its parsed guess otherwise. */
  lemma GuessesOfLine(line: string, isSpace: char -> bool)
    ensures AllSatisfy(line, isSpace) ==> GuessesOf([line], isSpace) == []
    ensures !AllSatisfy(line, isSpace) ==> GuessesOf([line], isSpace) == [ParseGuessLine(line, isSpace).value]
  {
    assert [line][1..] == [];
  }

  /** The guesses of two blocks of output are those of the first block, then those of the second. */
  lemma {:induction false} GuessesOfAppend(a: seq<string>, b: seq<string>, isSpace: char -> bool)
    ensures GuessesOf(a + b, isSpace) == GuessesOf(a, isSpace) + GuessesOf(b, isSpace)
    decreases |a|
  {
    if a == [] {
      assert a + b == b;
    } else {
      assert (a + b)[0] == a[0];
      assert (a + b)[1..] == a[1..] + b;
      GuessesOfAppend(a[1..], b, isSpace);
    }
  }

  /** The models to run: the requested ones, or every registered model when none are named. */
  function ModelsToUse(requested: seq<string>, registered: seq<string>): (ms: seq<string>)
    ensures requested != [] ==> ms == requested
    ensures requested == [] ==> ms == registered
  {
    if requested == [] then registered else requested
  }

  /** The (word, pronunciation) pairs one model's guesses yield, tagged with that model. */
  function PairsOf(modelId: string, guesses: seq<Guess>): (r: seq<(string, Pronunciation)>)
    ensures |r| == |guesses|
    ensures forall k | 0 <= k < |r| ::
      && r[k].0 == guesses[k].word
      && r[k].1 == Pronunciation(guesses[k].word, guesses[k].phonemes, Some(modelId), None)
  {
    seq(|guesses|, k requires 0 <= k < |guesses| =>
      (guesses[k].word, Pronunciation(guesses[k].word, guesses[k].phonemes, Some(modelId), None)))
  }

  /** Why running one model raises, if it does: it is not registered, or its tool fails. */
  function ModelFault(m: string, registered: seq<string>, tool: Tool, words: set<string>, numGuesses: int): Option<Fault>
  {
    if m !in registered then Some(MissingModel(m))
    else
      match tool(m, words, numGuesses)
      case ToolFailure(reason) => Some(ToolFailed(m, reason))
      case ToolOutput(_) => None
  }

  /** The guesses one model's tool run yields: those of its output lines, or none when it fails. */
  function GuessesBy(m: string, tool: Tool, words: set<string>, numGuesses: int, isSpace: char -> bool): (r: seq<Guess>)
    ensures forall k | 0 <= k < |r| :: r[k].word != [] && NoneSatisfy(r[k].word, isSpace)
  {
    match tool(m, words, numGuesses)
    case ToolOutput(lines) => GuessesOf(lines, isSpace)
    case ToolFailure(_) => []
  }

  /** Every model's pairs laid end to end, in model order. */
  function ModelPairs(models: seq<string>, tool: Tool, words: set<string>, numGuesses: int, isSpace: char -> bool): seq<(string, Pronunciation)>
    decreases |models|
  {
    if models == [] then []
    else
      var first := PairsOf(models[0], GuessesBy(models[0], tool, words, numGuesses, isSpace));
      first + ModelPairs(models[1..], tool, words, numGuesses, isSpace)
  }

  /**
   * Every pair is keyed by its pronunciation's word, which is not empty, and
   * is tagged with one of the models and no dictionary.
   */
  lemma {:induction false} ModelPairsShape(models: seq<string>, tool: Tool, words: set<string>, numGuesses: int, isSpace: char -> bool)
    ensures var r := ModelPairs(models, tool, words, numGuesses, isSpace);
      forall k | 0 <= k < |r| ::
        && r[k].0 == r[k].1.word
        && r[k].1.word != []
        && r[k].1.dictionaryId == None
        && r[k].1.modelId.Some? && r[k].1.modelId.value in models
  {
    var r := ModelPairs(models, tool, words, numGuesses, isSpace);
    forall k | 0 <= k < |r|
      ensures r[k].0 == r[k].1.word && r[k].1.word != [] && r[k].1.dictionaryId == None
      ensures r[k].1.modelId.Some? && r[k].1.modelId.value in models
    {
      ModelPairAt(models, tool, words, numGuesses, isSpace, k);
    }
  }

  /** One pair of `ModelPairs`, by induction on the models before it. */
  lemma {:induction false} ModelPairAt(models: seq<string>, tool: Tool, words: set<string>, numGuesses: int, isSpace: char -> bool, k: nat)
    requires k < |ModelPairs(models, tool, words, numGuesses, isSpace)|
    ensures var p := ModelPairs(models, tool, words, numGuesses, isSpace)[k];
      && p.0 == p.1.word && p.1.word != [] && p.1.dictionaryId == None
      && p.1.modelId.Some? && p.1.modelId.value in models
    decreases |models|
  {
    var gs := GuessesBy(models[0], tool, words, numGuesses, isSpace);
    var first := PairsOf(models[0], gs);
    var rest := ModelPairs(models[1..], tool, words, numGuesses, isSpace);
    assert ModelPairs(models, tool, words, numGuesses, isSpace) == first + rest;
    if k < |first| {
      assert gs[k].word != [];
    } else {
      var t := k - |first|;
      ModelPairAt(models[1..], tool, words, numGuesses, isSpace, t);
      TailMember(models, rest[t].1.modelId.value);
    }
  }

  /** A member of a sequence's tail is a member of the sequence. */
  lemma TailMember(s: seq<string>, x: string)
    requires s != [] && x in s[1..]
    ensures x in s
  {
    var j :| 0 <= j < |s[1..]| && s[1..][j] == x;
    assert s[j + 1] == x;
  }

  /**
   * Runs each model in order over the same word list. A model that is not
   * registered, or whose tool fails, aborts the whole guess: nothing any
   * model produced is kept and the error is that of the first such model.
   */
  function GuessWith(models: seq<string>, registered: seq<string>, tool: Tool,
                     words: set<string>, numGuesses: int, isSpace: char -> bool): (r: Result<seq<(string, Pronunciation)>, Fault>)
    ensures r.Success? <==> forall k | 0 <= k < |models| :: ModelFault(models[k], registered, tool, words, numGuesses).None?
    ensures r.Failure? ==> exists k | 0 <= k < |models| ::
      && (forall j | 0 <= j < k :: ModelFault(models[j], registered, tool, words, numGuesses).None?)
      && ModelFault(models[k], registered, tool, words, numGuesses) == Some(r.error)
    ensures r.Success? ==> forall k | 0 <= k < |r.value| ::
      && r.value[k].0 == r.value[k].1.word
      && r.value[k].1.word != []
      && r.value[k].1.dictionaryId == None
      && r.value[k].1.modelId.Some? && r.value[k].1.modelId.value in models
    ensures r.Success? ==> r.value == ModelPairs(models, tool, words, numGuesses, isSpace)
    decreases |models|
  {
    if models == [] then Success([])
    else
      var m := models[0];
      match ModelFault(m, registered, tool, words, numGuesses)
      case Some(f) => Failure(f)
      case None =>
        var r := GuessWith(models[1..], registered, tool, words, numGuesses, isSpace);
        match r
        case Failure(f) => Failure(f)
        case Success(rest) =>
          var pairs := PairsOf(m, GuessesBy(m, tool, words, numGuesses, isSpace)) + rest;
          assert pairs == ModelPairs(models, tool, words, numGuesses, isSpace);
          ModelPairsShape(models, tool, words, numGuesses, isSpace);
          Success(pairs)
  }

  /** The first model that faults decides the error, whatever the models after it would do. */
  lemma FirstFaultWins(models: seq<string>, registered: seq<string>, tool: Tool,
                       words: set<string>, numGuesses: int, isSpace: char -> bool, k: nat)
    requires k < |models|
    requires ModelFault(models[k], registered, tool, words, numGuesses).Some?
    requires forall j | 0 <= j < k :: ModelFault(models[j], registered, tool, words, numGuesses).None?
    ensures GuessWith(models, registered, tool, words, numGuesses, isSpace)
      == Failure(ModelFault(models[k], registered, tool, words, numGuesses).value)
  {
    var g := GuessWith(models, registered, tool, words, numGuesses, isSpace);
    assert g.Failure?;
    var i :| 0 <= i < |models|
      && (forall j | 0 <= j < i :: ModelFault(models[j], registered, tool, words, numGuesses).None?)
      && ModelFault(models[i], registered, tool, words, numGuesses) == Some(g.error);
    assert i == k;
  }

  /** `guess_words`: the models to use, then every model's guesses in order. */
  function GuessWords(requested: seq<string>, registered: seq<string>, tool: Tool,
                      words: set<string>, numGuesses: int, isSpace: char -> bool): Result<seq<(string, Pronunciation)>, Fault>
  {
    GuessWith(ModelsToUse(requested, registered), registered, tool, words, numGuesses, isSpace)
  }

  /** The pairs of two model lists run one after the other are the pairs of each, in order. */
  lemma {:induction false} ModelPairsAppend(a: seq<string>, b: seq<string>, tool: Tool, words: set<string>, numGuesses: int, isSpace: char -> bool)
    ensures ModelPairs(a + b, tool, words, numGuesses, isSpace)
      == ModelPairs(a, tool, words, numGuesses, isSpace) + ModelPairs(b, tool, words, numGuesses, isSpace)
    decreases |a|
  {
    if a == [] {
      assert a + b == b;
    } else {
      var m := a[0];
      var first := PairsOf(m, GuessesBy(m, tool, words, numGuesses, isSpace));
      var rest := ModelPairs(a[1..], tool, words, numGuesses, isSpace);
      assert a == [m] + a[1..];
      assert a + b == [m] + (a[1..] + b);
      ModelPairsCons(m, a[1..] + b, tool, words, numGuesses, isSpace);
      ModelPairsCons(m, a[1..], tool, words, numGuesses, isSpace);
      ModelPairsAppend(a[1..], b, tool, words, numGuesses, isSpace);
      AppendAssoc(first, rest, ModelPairs(b, tool, words, numGuesses, isSpace));
    }
  }

  /** The pairs of a model followed by others are that model's pairs, then the others'. */
  lemma ModelPairsCons(m: string, rest: seq<string>, tool: Tool, words: set<string>, numGuesses: int, isSpace: char -> bool)
    ensures ModelPairs([m] + rest, tool, words, numGuesses, isSpace)
      == PairsOf(m, GuessesBy(m, tool, words, numGuesses, isSpace)) + ModelPairs(rest, tool, words, numGuesses, isSpace)
  {
    assert ([m] + rest)[1..] == rest;
  }

  /** No pair is for `w` when no model guesses `w`. */
  lemma {:induction false} ModelPairsAvoid(models: seq<string>, tool: Tool, words: set<string>, numGuesses: int, isSpace: char -> bool, w: string)
    requires forall j, t | 0 <= j < |models| && 0 <= t < |GuessesBy(models[j], tool, words, numGuesses, isSpace)| ::
      GuessesBy(models[j], tool, words, numGuesses, isSpace)[t].word != w
    ensures forall t | 0 <= t < |ModelPairs(models, tool, words, numGuesses, isSpace)| ::
      ModelPairs(models, tool, words, numGuesses, isSpace)[t].0 != w
    decreases |models|
  {
    if models != [] {
      assert forall j | 1 <= j < |models| :: models[1..][j - 1] == models[j];
      ModelPairsAvoid(models[1..], tool, words, numGuesses, isSpace, w);
    }
  }

  /**
   * Which guess `dict(pairs)` keeps for a word: the last guess for it from
   * the last model that guessed it at all, tagged with that model.
   */
  lemma LaterModelWins(models: seq<string>, tool: Tool, words: set<string>, numGuesses: int, isSpace: char -> bool,
                       w: string, i: nat, k: nat)
    requires i < |models|
    requires k < |GuessesBy(models[i], tool, words, numGuesses, isSpace)|
    requires GuessesBy(models[i], tool, words, numGuesses, isSpace)[k].word == w
    requires forall t | k < t < |GuessesBy(models[i], tool, words, numGuesses, isSpace)| ::
      GuessesBy(models[i], tool, words, numGuesses, isSpace)[t].word != w
    requires forall j, t | i < j < |models| && 0 <= t < |GuessesBy(models[j], tool, words, numGuesses, isSpace)| ::
      GuessesBy(models[j], tool, words, numGuesses, isSpace)[t].word != w
    ensures var d := LastWins(ModelPairs(models, tool, words, numGuesses, isSpace));
      && w in d
      && d[w] == Pronunciation(w, GuessesBy(models[i], tool, words, numGuesses, isSpace)[k].phonemes, Some(models[i]), None)
  {
    var gs := GuessesBy(models[i], tool, words, numGuesses, isSpace);
    var after := models[i + 1..];
    ModelPairsAround(models, tool, words, numGuesses, isSpace, i);
    assert forall j | 0 <= j < |after| :: after[j] == models[i + 1 + j];
    ModelPairsAvoid(after, tool, words, numGuesses, isSpace, w);
    LastWinsMiddle(ModelPairs(models[..i], tool, words, numGuesses, isSpace), PairsOf(models[i], gs),
      ModelPairs(after, tool, words, numGuesses, isSpace), k);
  }

  /** The pairs of a model list are those of the models before model `i`, then model `i`'s, then those after it. */
  lemma ModelPairsAround(models: seq<string>, tool: Tool, words: set<string>, numGuesses: int, isSpace: char -> bool, i: nat)
    requires i < |models|
    ensures ModelPairs(models, tool, words, numGuesses, isSpace)
      == ModelPairs(models[..i], tool, words, numGuesses, isSpace)
       + (PairsOf(models[i], GuessesBy(models[i], tool, words, numGuesses, isSpace))
       + ModelPairs(models[i + 1..], tool, words, numGuesses, isSpace))
  {
    var rest := [models[i]] + models[i + 1..];
    assert models == models[..i] + rest;
    ModelPairsAppend(models[..i], rest, tool, words, numGuesses, isSpace);
    assert rest[1..] == models[i + 1..];
  }

  /**
   * In `dict(p + q + r)` a word keeps the value of its last pair in `q`
   * when `r` has no pair for it.
   */
  lemma LastWinsMiddle<V>(p: seq<(string, V)>, q: seq<(string, V)>, r: seq<(string, V)>, k: nat)
    requires k < |q|
    requires forall t | k < t < |q| :: q[t].0 != q[k].0
    requires forall t | 0 <= t < |r| :: r[t].0 != q[k].0
    ensures q[k].0 in LastWins(p + (q + r)) && LastWins(p + (q + r))[q[k].0] == q[k].1
  {
    var pairs := p + (q + r);
    var at := |p| + k;
    assert pairs[at] == q[k];
    forall j | at < j < |pairs|
      ensures pairs[j].0 != q[k].0
    {
      if j < |p| + |q| {
        assert pairs[j] == q[j - |p|];
      } else {
        assert pairs[j] == r[j - |p| - |q|];
      }
    }
    LastWinsKeepsLast(pairs, at);
  }

  /**
   * `dict(pairs)`: a word is a key when some pair has it, and a later pair
   * for the same word replaces an earlier one.
   */
  function LastWins<V>(pairs: seq<(string, V)>): (d: map<string, V>)
    ensures forall w :: w in d <==> exists k | 0 <= k < |pairs| :: pairs[k].0 == w
    decreases |pairs|
  {
    if pairs == [] then map[]
    else
      var init := pairs[..|pairs| - 1];
      var last := pairs[|pairs| - 1];
      assert forall k | 0 <= k < |init| :: init[k] == pairs[k];
      LastWins(init)[last.0 := last.1]
  }

  /** The value `dict(pairs)` keeps for a word is that of its last pair. */
  lemma {:induction false} LastWinsKeepsLast<V>(pairs: seq<(string, V)>, k: nat)
    requires k < |pairs|
    requires forall j | k < j < |pairs| :: pairs[j].0 != pairs[k].0
    ensures pairs[k].0 in LastWins(pairs) && LastWins(pairs)[pairs[k].0] == pairs[k].1
    decreases |pairs|
  {
    if k < |pairs| - 1 {
      var init := pairs[..|pairs| - 1];
      assert init[k] == pairs[k];
      LastWinsKeepsLast(init, k);
    }
  }

  /** Every value `dict(pairs)` keeps comes from one of the pairs for that word. */
  lemma {:induction false} LastWinsFromPairs<V>(pairs: seq<(string, V)>, w: string)
    requires w in LastWins(pairs)
    ensures exists k | 0 <= k < |pairs| :: pairs[k] == (w, LastWins(pairs)[w])
    decreases |pairs|
  {
    var init := pairs[..|pairs| - 1];
    var last := pairs[|pairs| - 1];
    if last.0 != w {
      LastWinsFromPairs(init, w);
      var k :| 0 <= k < |init| && init[k] == (w, LastWins(init)[w]);
      assert pairs[k] == init[k];
    } else {
      assert pairs[|pairs| - 1] == (w, LastWins(pairs)[w]);
    }
  }
}

=== FILE: line_parser.dfy ===
/**
 * Parsing of one pronunciation dictionary line, tolerant of the CMU and
 * Julius dialects: `WORD[(n)][+WORD2...] PHONEME ... [annotations]`.
 */
module LineParser {
  import opened Wrappers
  import opened Sequences
  import opened Text

  /** One (word, phonemes) pair read from a dictionary line. */
  datatype DictEntry = DictEntry(word: string, phonemes: seq<string>)

  /** A phoneme token had no first character; the line is skipped with a warning. */
  datatype LineError = EmptyToken

  /** The only token separators in a dictionary line: ASCII space and tab. */
  predicate IsBlank(c: char) {
    c == ' ' || c == '\t'
  }

  /** Julius annotations are tokens starting with '[' or '@'. */
  predicate IsAnnotation(token: string) {
    |token| > 0 && (token[0] == '[' || token[0] == '@')
  }

  /**
   * The phoneme tokens with annotations dropped, in order. Looking at the
   * first character of an empty token raises, so any empty token makes the
   * whole line fail.
   */
  function KeepPhonemes(tokens: seq<string>): (r: Option<seq<string>>)
    ensures r.None? <==> exists k | 0 <= k < |tokens| :: tokens[k] == []
    ensures r.Some? ==> forall k | 0 <= k < |r.value| :: r.value[k] in tokens && !IsAnnotation(r.value[k])
    ensures r.Some? ==> forall k | 0 <= k < |tokens| && !IsAnnotation(tokens[k]) :: tokens[k] in r.value
  {
    if tokens == [] then Some([])
    else if tokens[0] == [] then None
    else
      match KeepPhonemes(tokens[1..])
      case None => None
      case Some(rest) => Some(if IsAnnotation(tokens[0]) then rest else [tokens[0]] + rest)
  }

  /** Dropping annotations works token by token: it distributes over concatenation. */
  lemma {:induction false} KeepPhonemesAppend(a: seq<string>, b: seq<string>)
    ensures KeepPhonemes(a + b).Some? <==> KeepPhonemes(a).Some? && KeepPhonemes(b).Some?
    ensures KeepPhonemes(a).Some? && KeepPhonemes(b).Some? ==>
      KeepPhonemes(a + b).value == KeepPhonemes(a).value + KeepPhonemes(b).value
    decreases |a|
  {
    if a == [] {
      assert a + b == b;
    } else {
      var ab := a + b;
      assert ab[0] == a[0];
      assert ab[1..] == a[1..] + b;
      KeepPhonemesAppend(a[1..], b);
      if a[0] != [] {
        assert KeepPhonemes(ab).Some? == KeepPhonemes(ab[1..]).Some?;
        assert KeepPhonemes(a).Some? == KeepPhonemes(a[1..]).Some?;
      }
    }
  }

  lemma KeepPhonemesAnnotation(token: string)
    requires IsAnnotation(token)
    ensures KeepPhonemes([token]) == Some([])
  {
    assert [token][1..] == [];
  }

  /** Tokens that are all non-empty phonemes come through unchanged. */
  lemma {:induction false} KeepPhonemesPlain(tokens: seq<string>)
    requires forall k | 0 <= k < |tokens| :: tokens[k] != [] && !IsAnnotation(tokens[k])
    ensures KeepPhonemes(tokens) == Some(tokens)
    decreases |tokens|
  {
    if tokens != [] {
      KeepPhonemesPlain(tokens[1..]);
      assert tokens == [tokens[0]] + tokens[1..];
    }
  }

  /**
   * Cuts a numbered-variant suffix: a word ends before its first '(' unless
   * that '(' is its first character, in which case it is kept whole.
   */
  function StripVariant(token: string): (word: string)
    ensures word <= token
    ensures word == token <==> '(' !in token || token[0] == '('
    ensures word != token ==> word != [] && '(' !in word && token[|word|] == '('
  {
    match IndexOf(token, '(')
    case None => token
    case Some(i) => if i > 0 then token[..i] else token
  }

  /**
   * The index words one word token stands for: the variant suffix is cut,
   * then a Julius compound `w1+w2` is split into its parts.
   */
  function WordsOf(token: string): (words: seq<string>)
    ensures |words| >= 1
    ensures forall k | 0 <= k < |words| :: '+' !in words[k]
    ensures Join(words, '+') == StripVariant(token)
  {
    var word := StripVariant(token);
    if '+' in word then
      JoinSplitOn(word, '+');
      SplitOn(word, '+')
    else [word]
  }

  /** The `[ \t]+`-separated tokens of a stripped line. */
  function Tokens(line: string, isSpace: char -> bool): seq<string>
  {
    SplitRuns(Strip(line, isSpace), IsBlank)
  }

  /** A phoneme as it can appear in a parsed entry. */
  predicate IsPhoneme(p: string) {
    p != [] && !IsAnnotation(p) && NoneSatisfy(p, IsBlank)
  }

  /** One entry per word, every entry with the same phonemes. */
  function EntriesFor(words: seq<string>, phonemes: seq<string>): (r: seq<DictEntry>)
    ensures |r| == |words|
    ensures forall k | 0 <= k < |r| :: r[k] == DictEntry(words[k], phonemes)
  {
    seq(|words|, k requires 0 <= k < |words| => DictEntry(words[k], phonemes))
  }

  lemma EntriesForOne(word: string, phonemes: seq<string>)
    ensures EntriesFor([word], phonemes) == [DictEntry(word, phonemes)]
  {
    assert EntriesFor([word], phonemes)[0] == DictEntry(word, phonemes);
  }

  /** The words of a list of entries, in order. */
  function WordsIn(entries: seq<DictEntry>): (r: seq<string>)
    ensures |r| == |entries|
    ensures forall k | 0 <= k < |r| :: r[k] == entries[k].word
  {
    seq(|entries|, k requires 0 <= k < |entries| => entries[k].word)
  }

  /**
   * One dictionary line parsed to its entries. A blank line gives none; a
   * line fails only when a phoneme token is empty; the entries of a line all
   * share one phoneme list.
   */
  function ParseLine(line: string, isSpace: char -> bool): (r: Result<seq<DictEntry>, LineError>)
    ensures AllSatisfy(line, isSpace) ==> r == Success([])
    ensures r.Failure? ==> exists k | 1 <= k < |Tokens(line, isSpace)| :: Tokens(line, isSpace)[k] == []
    ensures r.Success? ==> forall k | 0 <= k < |r.value| :: r.value[k].phonemes == r.value[0].phonemes
  {
    var stripped := Strip(line, isSpace);
    if stripped == [] then Success([])
    else
      var parts := SplitRuns(stripped, IsBlank);
      match KeepPhonemes(parts[1..])
      case None =>
        var k :| 0 <= k < |parts[1..]| && parts[1..][k] == [];
        assert Tokens(line, isSpace) == parts && parts[k + 1] == [];
        Failure(EmptyToken)
      case Some(phonemes) => Success(EntriesFor(WordsOf(parts[0]), phonemes))
  }

  /**
   * What a successful parse of a non-blank line holds: at least one entry,
   * whose words re-joined with '+' give the first token without its variant
   * suffix, and whose phonemes are non-empty, blank-free, annotation-free
   * tokens of the rest of the line.
   */
  lemma ParsedEntries(line: string, isSpace: char -> bool)
    requires ParseLine(line, isSpace).Success?
    requires !AllSatisfy(line, isSpace)
    ensures var es := ParseLine(line, isSpace).value;
      && |es| >= 1
      && Join(WordsIn(es), '+') == StripVariant(Tokens(line, isSpace)[0])
      && forall k | 0 <= k < |es| :: '+' !in es[k].word
    ensures var es := ParseLine(line, isSpace).value;
      forall m | 0 <= m < |es[0].phonemes| ::
        IsPhoneme(es[0].phonemes[m]) && es[0].phonemes[m] in Tokens(line, isSpace)[1..]
    ensures KeepPhonemes(Tokens(line, isSpace)[1..]) == Some(ParseLine(line, isSpace).value[0].phonemes)
  {
    var parts := Tokens(line, isSpace);
    var phonemes := KeepPhonemes(parts[1..]).value;
    var words := WordsOf(parts[0]);
    var es := ParseLine(line, isSpace).value;
    assert es == EntriesFor(words, phonemes);
    assert WordsIn(es) == words;
    forall m | 0 <= m < |phonemes|
      ensures IsPhoneme(phonemes[m])
    {
      var j :| 0 <= j < |parts[1..]| && parts[1..][j] == phonemes[m];
      assert parts[j + 1] == phonemes[m];
    }
  }

  /**
   * The first-character test on phoneme tokens never fails once stripping
   * removes spaces and tabs: splitting a stripped line on blank runs yields no
   * empty token, so no line is ever rejected.
   */
  lemma ParseLineNeverFails(line: string, isSpace: char -> bool)
    requires isSpace(' ') && isSpace('\t')
    ensures ParseLine(line, isSpace).Success?
  {
    var stripped := Strip(line, isSpace);
    if stripped != [] {
      SplitRunsPiecesNonEmpty(stripped, IsBlank);
      var parts := SplitRuns(stripped, IsBlank);
      assert KeepPhonemes(parts[1..]).Some?;
    }
  }

  /** The line a dictionary writer would produce for one entry. */
  function RenderLine(e: DictEntry): string
  {
    Join([e.word] + e.phonemes, ' ')
  }

  /** An entry that survives being written as a line: no whitespace, variant marker or compound marker in it. */
  predicate Renderable(e: DictEntry, isSpace: char -> bool) {
    && e.word != [] && NoneSatisfy(e.word, isSpace) && '(' !in e.word && '+' !in e.word
    && forall m | 0 <= m < |e.phonemes| ::
         e.phonemes[m] != [] && NoneSatisfy(e.phonemes[m], isSpace) && !IsAnnotation(e.phonemes[m])
  }

  /**
   * Non-empty, whitespace-free tokens joined with single spaces, followed by
   * any whitespace, tokenise back to themselves.
   */
  lemma JoinedTokens(tokens: seq<string>, pad: string, isSpace: char -> bool)
    requires isSpace(' ') && isSpace('\t')
    requires |tokens| >= 1
    requires forall k | 0 <= k < |tokens| :: tokens[k] != [] && NoneSatisfy(tokens[k], isSpace)
    requires AllSatisfy(pad, isSpace)
    ensures Tokens(Join(tokens, ' ') + pad, isSpace) == tokens
  {
    assert forall k | 0 <= k < |tokens| :: NoneSatisfy(tokens[k], IsBlank);
    var line := Join(tokens, ' ');
    JoinEnds(tokens, ' ');
    StripPadded(line, pad, isSpace);
    SplitRunsJoin(tokens, ' ', IsBlank);
  }

  /**
   * Non-empty, whitespace-free tokens separated by runs of spaces and tabs of
   * any length, followed by any whitespace, tokenise back to themselves.
   */
  lemma SpacedTokens(tokens: seq<string>, gaps: seq<string>, pad: string, isSpace: char -> bool)
    requires isSpace(' ') && isSpace('\t')
    requires |tokens| >= 1 && |gaps| == |tokens| - 1
    requires forall k | 0 <= k < |tokens| :: tokens[k] != [] && NoneSatisfy(tokens[k], isSpace)
    requires forall k | 0 <= k < |gaps| :: gaps[k] != [] && AllSatisfy(gaps[k], IsBlank)
    requires AllSatisfy(pad, isSpace)
    ensures Tokens(Interleave(tokens, gaps) + pad, isSpace) == tokens
  {
    assert forall k | 0 <= k < |tokens| :: NoneSatisfy(tokens[k], IsBlank);
    InterleaveEnds(tokens, gaps);
    StripPadded(Interleave(tokens, gaps), pad, isSpace);
    SplitRunsInterleave(tokens, gaps, IsBlank);
  }

  /**
   * However many spaces or tabs separate the tokens of a line, it parses as
   * the word token followed by the phoneme tokens.
   */
  lemma ParseSpacedLine(tokens: seq<string>, gaps: seq<string>, pad: string, isSpace: char -> bool)
    requires isSpace(' ') && isSpace('\t')
    requires |tokens| >= 1 && |gaps| == |tokens| - 1
    requires forall k | 0 <= k < |tokens| :: tokens[k] != [] && NoneSatisfy(tokens[k], isSpace)
    requires forall k | 0 <= k < |gaps| :: gaps[k] != [] && AllSatisfy(gaps[k], IsBlank)
    requires AllSatisfy(pad, isSpace)
    ensures KeepPhonemes(tokens[1..]).Some?
    ensures ParseLine(Interleave(tokens, gaps) + pad, isSpace)
      == Success(EntriesFor(WordsOf(tokens[0]), KeepPhonemes(tokens[1..]).value))
  {
    SpacedTokens(tokens, gaps, pad, isSpace);
    var line := Interleave(tokens, gaps) + pad;
    InterleaveEnds(tokens, gaps);
    assert line[0] == Interleave(tokens, gaps)[0];
  }

  /**
   * Round trip: parsing the rendered line of an entry, with any trailing
   * whitespace such as the newline, gives back exactly that entry.
   */
  lemma ParseRenderLine(e: DictEntry, pad: string, isSpace: char -> bool)
    requires isSpace(' ') && isSpace('\t')
    requires Renderable(e, isSpace)
    requires AllSatisfy(pad, isSpace)
    ensures ParseLine(RenderLine(e) + pad, isSpace) == Success([e])
  {
    var pieces := [e.word] + e.phonemes;
    assert forall k | 0 <= k < |pieces| :: pieces[k] != [] && NoneSatisfy(pieces[k], isSpace);
    var line := RenderLine(e);
    JoinedTokens(pieces, pad, isSpace);
    JoinEnds(pieces, ' ');
    StripPadded(line, pad, isSpace);
    assert pieces[1..] == e.phonemes;
    KeepPhonemesPlain(e.phonemes);
    assert WordsOf(e.word) == [e.word];
    assert EntriesFor([e.word], e.phonemes) == [e];
  }

  /** A line of plain tokens whose word token stands for `words` parses to one entry per word. */
  lemma ParsePlainTokens(tokens: seq<string>, pad: string, isSpace: char -> bool)
    requires isSpace(' ') && isSpace('\t')
    requires |tokens| >= 1
    requires forall k | 0 <= k < |tokens| :: tokens[k] != [] && NoneSatisfy(tokens[k], isSpace)
    requires AllSatisfy(pad, isSpace)
    ensures KeepPhonemes(tokens[1..]).Some?
    ensures ParseLine(Join(tokens, ' ') + pad, isSpace)
      == Success(EntriesFor(WordsOf(tokens[0]), KeepPhonemes(tokens[1..]).value))
  {
    var gaps := seq(|tokens| - 1, _ => " ");
    assert forall k | 0 <= k < |gaps| :: gaps[k] == " " && AllSatisfy(gaps[k], IsBlank);
    JoinInterleaves(tokens, ' ');
    ParseSpacedLine(tokens, gaps, pad, isSpace);
  }

  /**
   * A numbered variant `w(n)` followed by plain phonemes is indexed under
   * `w`, whatever the suffix after the '(' is.
   */
  lemma ParseVariantLine(w: string, suffix: string, phonemes: seq<string>, pad: string, isSpace: char -> bool)
    requires isSpace(' ') && isSpace('\t')
    requires Renderable(DictEntry(w, phonemes), isSpace)
    requires NoneSatisfy(w + ['('] + suffix, isSpace)
    requires AllSatisfy(pad, isSpace)
    ensures ParseLine(Join([w + ['('] + suffix] + phonemes, ' ') + pad, isSpace) == Success([DictEntry(w, phonemes)])
  {
    var token := w + ['('] + suffix;
    var tokens := [token] + phonemes;
    assert tokens[1..] == phonemes;
    ParsePlainTokens(tokens, pad, isSpace);
    IndexOfAfter(w, '(', suffix);
    assert token[..|w|] == w;
    KeepPhonemesPlain(phonemes);
    EntriesForOne(w, phonemes);
  }

  /**
   * A Julius compound `w1+...+wn` followed by plain phonemes gives one entry
   * per part, in order, every one with the same phonemes.
   */
  lemma ParseCompoundLine(words: seq<string>, phonemes: seq<string>, pad: string, isSpace: char -> bool)
    requires isSpace(' ') && isSpace('\t') && !isSpace('+')
    requires |words| >= 1
    requires forall k | 0 <= k < |words| ::
      words[k] != [] && NoneSatisfy(words[k], isSpace) && '(' !in words[k] && '+' !in words[k]
    requires forall m | 0 <= m < |phonemes| ::
      phonemes[m] != [] && NoneSatisfy(phonemes[m], isSpace) && !IsAnnotation(phonemes[m])
    requires AllSatisfy(pad, isSpace)
    ensures ParseLine(Join([Join(words, '+')] + phonemes, ' ') + pad, isSpace) == Success(EntriesFor(words, phonemes))
  {
    var token := Join(words, '+');
    JoinEnds(words, '+');
    JoinAvoids(words, '+', isSpace);
    assert forall k | 0 <= k < |words| :: NoneSatisfy(words[k], c => c == '(');
    JoinAvoids(words, '+', c => c == '(');
    assert '(' !in token;
    var tokens := [token] + phonemes;
    assert tokens[1..] == phonemes;
    ParsePlainTokens(tokens, pad, isSpace);
    KeepPhonemesPlain(phonemes);
    SplitOnJoin(words, '+');
    if |words| > 1 {
      assert token[|words[0]|] == '+';
    }
  }

  /** A Julius annotation among the phonemes is dropped and the phonemes around it kept in order. */
  lemma ParseAnnotatedLine(w: string, before: seq<string>, annotation: string, after: seq<string>,
                           pad: string, isSpace: char -> bool)
    requires isSpace(' ') && isSpace('\t')
    requires Renderable(DictEntry(w, before + after), isSpace)
    requires IsAnnotation(annotation) && NoneSatisfy(annotation, isSpace)
    requires AllSatisfy(pad, isSpace)
    ensures ParseLine(Join([w] + before + [annotation] + after, ' ') + pad, isSpace)
      == Success([DictEntry(w, before + after)])
  {
    var tokens := [w] + before + [annotation] + after;
    AnnotatedTokens(w, before, annotation, after, isSpace);
    ParsePlainTokens(tokens, pad, isSpace);
    KeepPhonemesDropsAnnotation(before, annotation, after);
    EntriesForOne(w, before + after);
  }

  /** The tokens of such a line: the word, then the phonemes with the annotation among them, all well formed. */
  lemma AnnotatedTokens(w: string, before: seq<string>, annotation: string, after: seq<string>, isSpace: char -> bool)
    requires Renderable(DictEntry(w, before + after), isSpace)
    requires IsAnnotation(annotation) && NoneSatisfy(annotation, isSpace)
    ensures var tokens := [w] + before + [annotation] + after;
      && |tokens| >= 1
      && tokens[0] == w
      && tokens[1..] == before + ([annotation] + after)
      && forall k | 0 <= k < |tokens| :: tokens[k] != [] && NoneSatisfy(tokens[k], isSpace)
    ensures forall k | 0 <= k < |before| :: before[k] != [] && !IsAnnotation(before[k])
    ensures forall k | 0 <= k < |after| :: after[k] != [] && !IsAnnotation(after[k])
  {
    var tail := [annotation] + after;
    var rest := before + tail;
    var tokens := [w] + rest;
    AppendAssoc([w] + before, [annotation], after);
    AppendAssoc([w], before, tail);
    assert forall m | 0 <= m < |before| :: before[m] == (before + after)[m];
    assert forall m | 0 <= m < |after| :: after[m] == (before + after)[|before| + m];
    assert forall k | 0 <= k < |tail| :: tail[k] != [] && NoneSatisfy(tail[k], isSpace);
    assert forall k | |before| <= k < |rest| :: rest[k] == tail[k - |before|];
    assert forall k | 1 <= k < |tokens| :: tokens[k] == rest[k - 1];
  }

  /** Dropping annotations removes an annotation between plain phonemes and keeps the rest in order. */
  lemma KeepPhonemesDropsAnnotation(before: seq<string>, annotation: string, after: seq<string>)
    requires forall k | 0 <= k < |before| :: before[k] != [] && !IsAnnotation(before[k])
    requires forall k | 0 <= k < |after| :: after[k] != [] && !IsAnnotation(after[k])
    requires IsAnnotation(annotation)
    ensures KeepPhonemes(before + ([annotation] + after)) == Some(before + after)
  {
    KeepPhonemesPlain(before);
    KeepPhonemesPlain(after);
    KeepPhonemesAnnotation(annotation);
    KeepPhonemesAppend([annotation], after);
    KeepPhonemesAppend(before, [annotation] + after);
  }
}

=== FILE: messages.dfy ===
/**
 * The hermes/g2p payloads: the G2pPronounce request, the G2pPronunciation
 * record, and the two replies, G2pPhonemes and G2pError.
 */
module Messages {
  import opened Wrappers

  const DefaultSiteId: string := "default"
  const DefaultNumGuesses: int := 5

  /**
   * One phonetic pronunciation of one word (G2pPronunciation). Dictionary
   * entries carry only a `dictionaryId`, guesses only a `modelId`.
   */
  datatype Pronunciation = Pronunciation(
    word: string,
    phonemes: seq<string>,
    modelId: Option<string>,
    dictionaryId: Option<string>)

  /**
   * A G2pPronounce request.
   * `models`: None means no guessing, [] means every registered model,
   * anything else means exactly those models.
   * `dictionaries`: None means no dictionary lookup, [] means every
   * registered dictionary, anything else means only those dictionaries.
   */
  datatype Pronounce = Pronounce(
    id: string,
    words: seq<string>,
    siteId: string,
    sessionId: string,
    models: Option<seq<string>>,
    dictionaries: Option<seq<string>>,
    numGuesses: int)

  /** A request for `words` with every other field at its declared default. */
  function PronounceWords(words: seq<string>): Pronounce
  {
    Pronounce("", words, DefaultSiteId, "", Some([]), Some([]), DefaultNumGuesses)
  }

  /**
   * The value stored for one word in G2pPhonemes.phonemes. A dictionary hit
   * is a list of pronunciations; a guess is the single pronunciation that
   * dict() kept for that word.
   */
  datatype WordPhonemes = Listed(prons: seq<Pronunciation>) | Guessed(pron: Pronunciation)

  /** The reply to one request: G2pPhonemes on success, G2pError otherwise. */
  datatype Response =
    | Phonemes(phonemes: map<string, WordPhonemes>, id: string, siteId: string, sessionId: string)
    | Error(error: string, context: string, id: string, siteId: string, sessionId: string)

  /** The exceptions resolution can raise. */
  datatype Fault =
    | CannotOpen(dictionaryId: string, reason: string)
    | MissingModel(modelId: string)
    | ToolFailed(modelId: string, reason: string)

  /** `str(e)` of the exception; only the missing-model text is known, the rest is opaque. */
  function Describe(f: Fault): string
  {
    match f
    case CannotOpen(_, reason) => reason
    case MissingModel(id) => "Missing G2P model " + id
    case ToolFailed(_, reason) => reason
  }
}

=== FILE: reload_watcher.dfy ===
/**
 * One tick of the dictionary watcher: compare each registered file's
 * modification time with the recorded baseline, update the baseline, and
 * drop the cached index when anything changed.
 */
module ReloadWatcher {
  import opened Wrappers
  import opened Sequences
  import opened DictionaryStore

  /**
   * What a tick sees for one registered dictionary: its file is missing, it
   * exists with a modification time in nanoseconds, or it exists but
   * reading its time raises.
   */
  datatype Observation = Absent | Modified(mtimeNs: int) | StatFailed

  /** Dictionary id to the last modification time recorded for it. */
  type Baseline = map<string, int>

  /** Where a scan of the observations ends up; `completed` is false when it raised part way. */
  datatype Scan = Scan(baseline: Baseline, reload: bool, completed: bool)

  /** The cache and baseline after one tick. */
  datatype TickResult = TickResult(cache: Option<Index>, baseline: Baseline)

  /** The recorded time for `id`, if any. */
  function StampIn(baseline: Baseline, id: string): Option<int>
  {
    if id in baseline then Some(baseline[id]) else None
  }

  /** The ids observed, in registration order. */
  function ObservedIds(obs: seq<(string, Observation)>): (ids: seq<string>)
    ensures |ids| == |obs|
    ensures forall k | 0 <= k < |ids| :: ids[k] == obs[k].0
  {
    seq(|obs|, k requires 0 <= k < |obs| => obs[k].0)
  }

  /** No observation raised. */
  predicate NoStatFailure(obs: seq<(string, Observation)>) {
    forall k | 0 <= k < |obs| :: !obs[k].1.StatFailed?
  }

  /** The time of the last existing-file observation of `id`: the one a full scan leaves behind. */
  function LastStamp(obs: seq<(string, Observation)>, id: string): (r: Option<int>)
    ensures r.Some? ==> exists k | 0 <= k < |obs| :: obs[k] == (id, Modified(r.value))
    ensures r.None? ==> forall k | 0 <= k < |obs| && obs[k].0 == id :: !obs[k].1.Modified?
    decreases |obs|
  {
    if obs == [] then None
    else
      assert forall k | 1 <= k < |obs| :: obs[k] == obs[1..][k - 1];
      match LastStamp(obs[1..], id)
      case Some(t) => Some(t)
      case None => if obs[0].0 == id && obs[0].1.Modified? then Some(obs[0].1.mtimeNs) else None
  }

  /** An observation that disagrees with an existing baseline entry. */
  predicate Changed(baseline: Baseline, o: (string, Observation)) {
    o.1.Modified? && o.0 in baseline && baseline[o.0] != o.1.mtimeNs
  }

  /**
   * The loop over registered dictionaries: a missing file is skipped, a
   * first sighting records its time, a different time records it and sets
   * the reload flag. A stat that raises ends the loop at once; the flag is
   * lost, the updates made so far are kept.
   */
  function ScanFrom(baseline: Baseline, reload: bool, obs: seq<(string, Observation)>): (s: Scan)
    ensures s.completed <==> NoStatFailure(obs)
    ensures !s.completed ==> !s.reload
    ensures s.completed && reload ==> s.reload
    decreases |obs|
  {
    if obs == [] then Scan(baseline, reload, true)
    else
      var id := obs[0].0;
      assert forall k | 1 <= k < |obs| :: obs[k] == obs[1..][k - 1];
      match obs[0].1
      case Absent => ScanFrom(baseline, reload, obs[1..])
      case StatFailed => Scan(baseline, false, false)
      case Modified(t) =>
        if id !in baseline then ScanFrom(baseline[id := t], reload, obs[1..])
        else if t != baseline[id] then ScanFrom(baseline[id := t], true, obs[1..])
        else ScanFrom(baseline, reload, obs[1..])
  }

  /** One tick: scan, then drop the cached index once if anything changed. */
  function Tick(cache: Option<Index>, baseline: Baseline, obs: seq<(string, Observation)>): (r: TickResult)
    ensures r.cache == cache || r.cache == None
  {
    var s := ScanFrom(baseline, false, obs);
    TickResult(if s.completed && s.reload then None else cache, s.baseline)
  }

  /**
   * With each dictionary observed once and no stat raising, a tick drops
   * the cached index exactly when some existing file's time differs from
   * its recorded baseline; a file seen for the first time only records it.
   */
  lemma TickDropsIff(cache: Option<Index>, baseline: Baseline, obs: seq<(string, Observation)>)
    requires cache.Some?
    requires NoStatFailure(obs)
    requires Distinct(ObservedIds(obs))
    ensures Tick(cache, baseline, obs).cache == None <==> exists k | 0 <= k < |obs| :: Changed(baseline, obs[k])
  {
    ScanReloadIff(baseline, false, obs);
  }

  /**
   * After a complete scan each id's baseline is the time of its last
   * existing-file observation; an id whose file was missing throughout
   * keeps its old entry, or stays without one.
   */
  lemma {:induction false} ScanBaselineAt(baseline: Baseline, reload: bool, obs: seq<(string, Observation)>, id: string)
    requires NoStatFailure(obs)
    ensures StampIn(ScanFrom(baseline, reload, obs).baseline, id)
      == if LastStamp(obs, id).Some? then LastStamp(obs, id) else StampIn(baseline, id)
    decreases |obs|
  {
    if obs != [] {
      assert NoStatFailure(obs[1..]) by {
        assert forall k | 1 <= k < |obs| :: obs[k] == obs[1..][k - 1];
      }
      var o := obs[0];
      var next := if o.1.Modified? then baseline[o.0 := o.1.mtimeNs] else baseline;
      var flag := reload || (o.1.Modified? && o.0 in baseline && o.1.mtimeNs != baseline[o.0]);
      assert o.1.Modified? && o.0 in baseline && o.1.mtimeNs == baseline[o.0] ==> next == baseline;
      assert ScanFrom(baseline, reload, obs) == ScanFrom(next, flag, obs[1..]);
      ScanBaselineAt(next, flag, obs[1..], id);
    }
  }

  /**
   * With each dictionary observed once, a complete scan raises the reload
   * flag exactly when some existing file's time differs from its baseline.
   */
  lemma {:induction false} ScanReloadIff(baseline: Baseline, reload: bool, obs: seq<(string, Observation)>)
    requires NoStatFailure(obs)
    requires Distinct(ObservedIds(obs))
    ensures ScanFrom(baseline, reload, obs).reload
      <==> reload || exists k | 0 <= k < |obs| :: Changed(baseline, obs[k])
    decreases |obs|
  {
    if obs != [] {
      var rest := obs[1..];
      assert forall k | 1 <= k < |obs| :: obs[k] == rest[k - 1];
      assert NoStatFailure(rest);
      assert Distinct(ObservedIds(rest)) by {
        assert forall k | 0 <= k < |rest| :: ObservedIds(rest)[k] == ObservedIds(obs)[k + 1];
      }
      var o := obs[0];
      var next := if o.1.Modified? then baseline[o.0 := o.1.mtimeNs] else baseline;
      var flag := reload || Changed(baseline, o);
      assert Changed(baseline, o) <==> o.1.Modified? && o.0 in baseline && o.1.mtimeNs != baseline[o.0];
      assert o.1.Modified? && o.0 in baseline && o.1.mtimeNs == baseline[o.0] ==> next == baseline;
      assert ScanFrom(baseline, reload, obs) == ScanFrom(next, flag, rest);
      ScanReloadIff(next, flag, rest);
      forall k | 0 <= k < |rest|
        ensures Changed(next, rest[k]) <==> Changed(baseline, rest[k])
      {
        assert ObservedIds(obs)[0] != ObservedIds(obs)[k + 1];
      }
    }
  }

  /**
   * A scan that raises part way keeps exactly the baseline updates made
   * before the failing dictionary.
   */
  lemma {:induction false} ScanAbortKeepsPrefix(baseline: Baseline, reload: bool, obs: seq<(string, Observation)>, k: nat)
    requires k < |obs| && obs[k].1.StatFailed?
    requires NoStatFailure(obs[..k])
    ensures ScanFrom(baseline, reload, obs).baseline == ScanFrom(baseline, reload, obs[..k]).baseline
    ensures !ScanFrom(baseline, reload, obs).completed
    decreases k
  {
    if k > 0 {
      var o := obs[0];
      assert o == obs[..k][0];
      assert obs[1..][k - 1] == obs[k];
      assert obs[1..][..k - 1] == obs[..k][1..];
      var tail, head := obs[1..][..k - 1], obs[..k];
      assert NoStatFailure(tail) by {
        assert forall j | 0 <= j < k - 1 :: tail[j] == head[j + 1];
      }
      var next := if o.1.Modified? then baseline[o.0 := o.1.mtimeNs] else baseline;
      var flag := reload || (o.1.Modified? && o.0 in baseline && o.1.mtimeNs != baseline[o.0]);
      assert o.1.Modified? && o.0 in baseline && o.1.mtimeNs == baseline[o.0] ==> next == baseline;
      assert ScanFrom(baseline, reload, obs) == ScanFrom(next, flag, obs[1..]);
      assert ScanFrom(baseline, reload, obs[..k]) == ScanFrom(next, flag, obs[..k][1..]);
      ScanAbortKeepsPrefix(next, flag, obs[1..], k - 1);
    }
  }

  /** A stat failure anywhere means the tick never drops the cache. */
  lemma StatFailureKeepsCache(cache: Option<Index>, baseline: Baseline, obs: seq<(string, Observation)>)
    requires !NoStatFailure(obs)
    ensures Tick(cache, baseline, obs).cache == cache
  {
  }

  /**
   * The first tick, with nothing recorded yet, only records: it never
   * triggers a reload.
   */
  lemma FirstTickOnlyRecords(cache: Option<Index>, obs: seq<(string, Observation)>)
    requires NoStatFailure(obs)
    requires Distinct(ObservedIds(obs))
    ensures Tick(cache, map[], obs).cache == cache
    ensures forall id :: StampIn(Tick(cache, map[], obs).baseline, id) == LastStamp(obs, id)
  {
    ScanReloadIff(map[], false, obs);
    forall id
      ensures StampIn(Tick(cache, map[], obs).baseline, id) == LastStamp(obs, id)
    {
      ScanBaselineAt(map[], false, obs, id);
    }
  }

  /** A tick in which every existing file matches its baseline changes nothing. */
  lemma {:induction false} StableScanIsNoop(baseline: Baseline, reload: bool, obs: seq<(string, Observation)>)
    requires NoStatFailure(obs)
    requires forall k | 0 <= k < |obs| && obs[k].1.Modified? :: StampIn(baseline, obs[k].0) == Some(obs[k].1.mtimeNs)
    ensures ScanFrom(baseline, reload, obs) == Scan(baseline, reload, true)
    decreases |obs|
  {
    if obs != [] {
      assert forall k | 1 <= k < |obs| :: obs[k] == obs[1..][k - 1];
      StableScanIsNoop(baseline, reload, obs[1..]);
    }
  }

  lemma StableTickIsNoop(cache: Option<Index>, baseline: Baseline, obs: seq<(string, Observation)>)
    requires NoStatFailure(obs)
    requires forall k | 0 <= k < |obs| && obs[k].1.Modified? :: StampIn(baseline, obs[k].0) == Some(obs[k].1.mtimeNs)
    ensures Tick(cache, baseline, obs) == TickResult(cache, baseline)
  {
    StableScanIsNoop(baseline, false, obs);
  }

  /**
   * Ticking again over the same observations is a no-op: the first tick
   * already recorded every time it saw.
   */
  lemma RepeatedTickIsNoop(cache: Option<Index>, baseline: Baseline, obs: seq<(string, Observation)>, other: Option<Index>)
    requires NoStatFailure(obs)
    requires Distinct(ObservedIds(obs))
    ensures Tick(other, Tick(cache, baseline, obs).baseline, obs)
      == TickResult(other, Tick(cache, baseline, obs).baseline)
  {
    var b := Tick(cache, baseline, obs).baseline;
    forall k | 0 <= k < |obs| && obs[k].1.Modified?
      ensures StampIn(b, obs[k].0) == Some(obs[k].1.mtimeNs)
    {
      ScanBaselineAt(baseline, false, obs, obs[k].0);
      LastStampDistinct(obs, k);
    }
    StableTickIsNoop(other, b, obs);
  }

  /** With each dictionary observed once, its last stamp is its one observation's. */
  lemma {:induction false} LastStampDistinct(obs: seq<(string, Observation)>, k: nat)
    requires k < |obs| && obs[k].1.Modified?
    requires Distinct(ObservedIds(obs))
    ensures LastStamp(obs, obs[k].0) == Some(obs[k].1.mtimeNs)
  {
    var t := LastStamp(obs, obs[k].0).value;
    var j :| 0 <= j < |obs| && obs[j] == (obs[k].0, Modified(t));
    assert ObservedIds(obs)[j] == ObservedIds(obs)[k];
  }

  /**
   * A tick that sees a changed file drops the cache, so the next lookup
   * rebuilds the index from every registered file.
   */
  lemma ChangeForcesRebuild(cache: Option<Index>, baseline: Baseline, obs: seq<(string, Observation)>, k: nat,
                            files: seq<DictionaryFile>, words: seq<string>, requested: seq<string>, isSpace: char -> bool)
    requires NoStatFailure(obs)
    requires Distinct(ObservedIds(obs))
    requires k < |obs| && Changed(baseline, obs[k])
    requires BuildIndex(files, isSpace).Success?
    ensures Tick(cache, baseline, obs).cache == None
    ensures LookupWords(Tick(cache, baseline, obs).cache, files, words, requested, isSpace).cache
      == Some(BuildIndex(files, isSpace).value)
  {
    ScanReloadIff(baseline, false, obs);
  }

  /**
   * The watcher runs only when a reload interval other than zero is given
   * and at least one dictionary is registered.
   */
  function WatcherEnabled(reload: Option<real>, files: seq<DictionaryFile>): (on: bool)
    ensures on ==> files != [] && reload.Some?
    ensures reload.None? || reload == Some(0.0) || files == [] ==> !on
    ensures on <==> reload.Some? && reload.value != 0.0 && files != []
  {
    match reload
    case None => false
    case Some(seconds) => seconds != 0.0 && |files| > 0
  }
}

=== FILE: resolver.dfy ===
/**
 * Resolving one G2pPronounce request: dictionary lookup first, then
 * guessing for whatever the lookup did not cover, then one reply.
 */
module Resolver {
  import opened Wrappers
  import opened Sequences
  import opened Text
  import opened Messages
  import opened DictionaryStore
  import opened Guesser

  /**
   * What the service was started with: the registered model ids and
   * dictionary files in registration order, the guessing tool, and the
   * whitespace test Python's `strip` and `\s` apply.
   */
  datatype Host = Host(
    models: seq<string>,
    dictionaries: seq<DictionaryFile>,
    guess: Tool,
    isSpace: char -> bool)

  /** The cache after handling a request, and the reply. */
  datatype Outcome = Outcome(cache: Option<Index>, response: Response)

  /** `{**listed, **guessed}`: every word of either map, a guess replacing a dictionary hit. */
  function Merge(listed: Index, guessed: map<string, Pronunciation>): (r: map<string, WordPhonemes>)
    ensures r.Keys == listed.Keys + guessed.Keys
    ensures forall w | w in guessed :: r[w] == Guessed(guessed[w])
    ensures forall w | w in listed && w !in guessed :: r[w] == Listed(listed[w])
  {
    map w | w in listed.Keys + guessed.Keys :: if w in guessed then Guessed(guessed[w]) else Listed(listed[w])
  }

  /**
   * The dictionary step: skipped entirely when the request names no
   * dictionary list at all. Otherwise a usable cache is used as is, an
   * absent or empty one is rebuilt from the files (and left alone when
   * that fails), and the hits gather every requested word from the
   * dictionaries the list selects.
   */
  function DictionaryStep(cache: Option<Index>, host: Host, req: Pronounce): (r: Lookup)
    ensures req.dictionaries.None? ==> r == Lookup(cache, Success(map[]))
    ensures req.dictionaries.Some? && !NeedsBuild(cache) ==> r.cache == cache && r.hits.Success?
    ensures req.dictionaries.Some? && NeedsBuild(cache) && BuildIndex(host.dictionaries, host.isSpace).Success? ==>
      r.cache == Some(BuildIndex(host.dictionaries, host.isSpace).value) && r.hits.Success?
    ensures req.dictionaries.Some? && NeedsBuild(cache) && BuildIndex(host.dictionaries, host.isSpace).Failure? ==>
      r == Lookup(cache, Failure(BuildIndex(host.dictionaries, host.isSpace).error))
    ensures r.hits.Success? ==> forall w | w in r.hits.value :: w in req.words
    ensures req.dictionaries.Some? && r.hits.Success? ==>
      && r.cache.Some?
      && r.hits.value == Gather(r.cache.value, req.words, DictionaryFilter(req.dictionaries.value, host.dictionaries))
  {
    match req.dictionaries
    case None => Lookup(cache, Success(map[]))
    case Some(requested) => LookupWords(cache, host.dictionaries, req.words, requested, host.isSpace)
  }

  /**
   * The guessing guard: guessing is allowed and the lookup found fewer
   * words than the request has, duplicates counted.
   */
  predicate NeedsGuess(req: Pronounce, found: Index) {
    req.models.Some? && |found| < |req.words|
  }

  /** The requested words the lookup did not find, as a set. */
  function Unknown(req: Pronounce, found: Index): (u: set<string>)
    ensures forall w :: w in u <==> w in req.words && w !in found
  {
    Elements(req.words) - found.Keys
  }

  /** The error reply: the exception text, and the request words joined with commas as context. */
  function ErrorFor(req: Pronounce, f: Fault): Response
  {
    Error(Describe(f), Join(req.words, ','), req.id, req.siteId, req.sessionId)
  }

  function PhonemesFor(req: Pronounce, phonemes: map<string, WordPhonemes>): Response
  {
    Phonemes(phonemes, req.id, req.siteId, req.sessionId)
  }

  /**
   * `handle_pronounce`. The reply echoes the request's id, siteId and
   * sessionId. Any raised fault becomes an error reply whose context is the
   * words joined with commas. A request without a dictionary list never
   * touches the cache, and one without a model list never guesses. Every
   * dictionary value is a non-empty list for a requested word, drawn from
   * the cache; every guessed value is a model's guess for that very word.
   */
  function HandlePronounce(cache: Option<Index>, host: Host, req: Pronounce): (o: Outcome)
    ensures o.response.id == req.id && o.response.siteId == req.siteId && o.response.sessionId == req.sessionId
    ensures o.response.Error? ==> o.response.context == Join(req.words, ',')
    ensures req.dictionaries.None? ==> o.cache == cache
    ensures o.response.Phonemes? && req.models.None? ==>
      forall w | w in o.response.phonemes :: o.response.phonemes[w].Listed?
    ensures o.response.Phonemes? ==> forall w | w in o.response.phonemes && o.response.phonemes[w].Listed? ::
      && w in req.words
      && o.response.phonemes[w].prons != []
      && o.cache.Some?
      && forall k | 0 <= k < |o.response.phonemes[w].prons| ::
           o.response.phonemes[w].prons[k] in Get(o.cache.value, w)
    ensures o.response.Phonemes? ==> forall w | w in o.response.phonemes && o.response.phonemes[w].Guessed? ::
      && o.response.phonemes[w].pron.word == w
      && o.response.phonemes[w].pron.dictionaryId == None
      && o.response.phonemes[w].pron.modelId.Some?
    ensures o.response.Phonemes? ==> forall w | w in o.response.phonemes && o.response.phonemes[w].Guessed? ::
      && req.models.Some?
      && DictionaryStep(cache, host, req).hits.Success?
      && var ms := ModelsToUse(req.models.value, host.models);
         var pairs := ModelPairs(ms, host.guess, Unknown(req, DictionaryStep(cache, host, req).hits.value),
                                 req.numGuesses, host.isSpace);
         && w in LastWins(pairs)
         && o.response.phonemes[w].pron == LastWins(pairs)[w]
         && o.response.phonemes[w].pron.modelId.value in ms
  {
    var looked := DictionaryStep(cache, host, req);
    match looked.hits
    case Failure(f) => Outcome(looked.cache, ErrorFor(req, f))
    case Success(found) =>
      match Answer(host, req, found)
      case Failure(f) => Outcome(looked.cache, ErrorFor(req, f))
      case Success(phonemes) => Outcome(looked.cache, PhonemesFor(req, phonemes))
  }

  /**
   * The answer once the lookup found `found`: when the guard opens, the
   * guesses for the missing words, each replacing any dictionary hit; a
   * dictionary value is the hit itself, and a guessed value is what
   * `dict(pairs)` keeps over every model's guesses in model order.
   */
  function Answer(host: Host, req: Pronounce, found: Index): (r: Result<map<string, WordPhonemes>, Fault>)
    ensures !NeedsGuess(req, found) ==> r == Success(Merge(found, map[]))
    ensures r.Success? ==> found.Keys <= r.value.Keys
    ensures r.Success? ==> forall w | w in r.value && r.value[w].Listed? :: w in found && r.value[w].prons == found[w]
    ensures r.Success? ==> forall w | w in r.value && r.value[w].Guessed? ::
      && req.models.Some?
      && var ms := ModelsToUse(req.models.value, host.models);
         var pairs := ModelPairs(ms, host.guess, Unknown(req, found), req.numGuesses, host.isSpace);
         && w in LastWins(pairs)
         && r.value[w].pron == LastWins(pairs)[w]
         && r.value[w].pron.word == w
         && r.value[w].pron.dictionaryId == None
         && r.value[w].pron.modelId.Some? && r.value[w].pron.modelId.value in ms
  {
    if NeedsGuess(req, found) then
      match GuessWords(req.models.value, host.models, host.guess, Unknown(req, found), req.numGuesses, host.isSpace)
      case Failure(f) => Failure(f)
      case Success(pairs) =>
        var guessed := LastWins(pairs);
        var ms := ModelsToUse(req.models.value, host.models);
        forall w | w in guessed
          ensures guessed[w].word == w && guessed[w].dictionaryId == None
          ensures guessed[w].modelId.Some? && guessed[w].modelId.value in ms
        {
          LastWinsFromPairs(pairs, w);
        }
        Success(Merge(found, guessed))
    else Success(Merge(found, map[]))
  }

  /**
   * A dictionary file that cannot be opened while the index is being
   * (re)built makes the whole request an error reply carrying that fault,
   * and the cache stays as it was.
   */
  lemma UnreadableDictionaryReported(cache: Option<Index>, host: Host, req: Pronounce)
    requires req.dictionaries.Some? && NeedsBuild(cache)
    requires BuildIndex(host.dictionaries, host.isSpace).Failure?
    ensures HandlePronounce(cache, host, req)
      == Outcome(cache, ErrorFor(req, BuildIndex(host.dictionaries, host.isSpace).error))
  {
  }

  /**
   * The cache a dictionary request leaves, whatever the reply: a usable
   * cache is kept, and an absent or empty one is replaced by a successful
   * rebuild, even when guessing fails afterwards.
   */
  lemma RequestCache(cache: Option<Index>, host: Host, req: Pronounce)
    requires req.dictionaries.Some?
    ensures !NeedsBuild(cache) ==> HandlePronounce(cache, host, req).cache == cache
    ensures NeedsBuild(cache) && BuildIndex(host.dictionaries, host.isSpace).Success? ==>
      HandlePronounce(cache, host, req).cache == Some(BuildIndex(host.dictionaries, host.isSpace).value)
  {
    var looked := DictionaryStep(cache, host, req);
    assert HandlePronounce(cache, host, req).cache == looked.cache;
  }

  /**
   * A dictionary value in the reply is exactly what the lookup gathers for
   * that word from the dictionaries the request selects: its matching
   * entries, repeated once for every time the word is requested.
   */
  lemma ListedFollowsRequest(cache: Option<Index>, host: Host, req: Pronounce)
    requires req.dictionaries.Some?
    ensures var o := HandlePronounce(cache, host, req);
      o.response.Phonemes? ==> forall w | w in o.response.phonemes && o.response.phonemes[w].Listed? ::
        && o.cache.Some?
        && var g := Gather(o.cache.value, req.words, DictionaryFilter(req.dictionaries.value, host.dictionaries));
           w in g && o.response.phonemes[w].prons == g[w]
  {
    var o := HandlePronounce(cache, host, req);
    var looked := DictionaryStep(cache, host, req);
    if o.response.Phonemes? {
      assert looked.hits.Success?;
      var found := looked.hits.value;
      var a := Answer(host, req, found);
      assert a.Success? && o == Outcome(looked.cache, PhonemesFor(req, a.value));
      assert looked.cache.Some?;
      assert found == Gather(looked.cache.value, req.words, DictionaryFilter(req.dictionaries.value, host.dictionaries));
    }
  }

  /**
   * The guard's counting is sound in one direction: if some requested word
   * has no dictionary hit, the lookup found fewer words than were requested,
   * so the guesser runs.
   */
  lemma MissingWordTripsGuard(req: Pronounce, found: Index, w: string)
    requires found.Keys <= Elements(req.words)
    requires w in req.words && w !in found
    ensures |found| < |req.words|
  {
    SubsetCardinality(found.Keys, Elements(req.words) - {w});
    ElementsCardinality(req.words);
  }

  /**
   * The other direction needs distinct words: when every one of a request's
   * distinct words has a dictionary hit, the guard is closed, so the reply
   * does not depend on the guessing tool and holds only dictionary hits.
   */
  lemma CoveredRequestSkipsGuesser(cache: Option<Index>, host: Host, req: Pronounce, other: Tool)
    requires Distinct(req.words)
    requires DictionaryStep(cache, host, req).hits.Success?
    requires forall w | w in req.words :: w in DictionaryStep(cache, host, req).hits.value
    ensures HandlePronounce(cache, host, req) == HandlePronounce(cache, host.(guess := other), req)
    ensures var r := HandlePronounce(cache, host, req).response;
      r.Phonemes? && r.phonemes.Keys == Elements(req.words) && forall w | w in r.phonemes :: r.phonemes[w].Listed?
  {
    CoveredGuardCloses(cache, host, req);
    ClosedGuardReply(cache, host, req);
    ClosedGuardReply(cache, host.(guess := other), req);
  }

  /** Distinct words that are all found close the guard, and the hits are exactly those words. */
  lemma CoveredGuardCloses(cache: Option<Index>, host: Host, req: Pronounce)
    requires Distinct(req.words)
    requires DictionaryStep(cache, host, req).hits.Success?
    requires forall w | w in req.words :: w in DictionaryStep(cache, host, req).hits.value
    ensures DictionaryStep(cache, host, req).hits.value.Keys == Elements(req.words)
    ensures !NeedsGuess(req, DictionaryStep(cache, host, req).hits.value)
  {
    var found := DictionaryStep(cache, host, req).hits.value;
    assert found.Keys == Elements(req.words);
    DistinctCardinality(req.words);
  }

  /** With the guard closed, the reply is the dictionary hits alone, whatever the guessing tool. */
  lemma ClosedGuardReply(cache: Option<Index>, host: Host, req: Pronounce)
    requires DictionaryStep(cache, host, req).hits.Success?
    requires !NeedsGuess(req, DictionaryStep(cache, host, req).hits.value)
    ensures var looked := DictionaryStep(cache, host, req);
      HandlePronounce(cache, host, req) == Outcome(looked.cache, PhonemesFor(req, Merge(looked.hits.value, map[])))
  {
  }

  /**
   * When the guard opens, the guesser is asked about exactly the words the
   * lookup missed; its failure becomes the error reply, and otherwise every
   * word it guessed replaces whatever the dictionaries gave.
   */
  lemma GuessesOverrideHits(cache: Option<Index>, host: Host, req: Pronounce)
    requires DictionaryStep(cache, host, req).hits.Success?
    requires NeedsGuess(req, DictionaryStep(cache, host, req).hits.value)
    ensures var found := DictionaryStep(cache, host, req).hits.value;
      var g := GuessWords(req.models.value, host.models, host.guess, Unknown(req, found), req.numGuesses, host.isSpace);
      var r := HandlePronounce(cache, host, req).response;
      && (g.Failure? ==> r == ErrorFor(req, g.error))
      && (g.Success? ==>
            && r.Phonemes?
            && r.phonemes.Keys == found.Keys + LastWins(g.value).Keys
            && forall w | w in LastWins(g.value) :: r.phonemes[w] == Guessed(LastWins(g.value)[w]))
  {
  }

  /**
   * End to end: when every model runs, a word some model guessed is answered
   * with the last guess for it from the last model that guessed it.
   */
  lemma LastModelsGuessAnswers(cache: Option<Index>, host: Host, req: Pronounce, w: string, i: nat, k: nat)
    requires DictionaryStep(cache, host, req).hits.Success?
    requires NeedsGuess(req, DictionaryStep(cache, host, req).hits.value)
    requires var ms := ModelsToUse(req.models.value, host.models);
      var u := Unknown(req, DictionaryStep(cache, host, req).hits.value);
      && (forall j | 0 <= j < |ms| :: ModelFault(ms[j], host.models, host.guess, u, req.numGuesses).None?)
      && i < |ms|
      && k < |GuessesBy(ms[i], host.guess, u, req.numGuesses, host.isSpace)|
      && GuessesBy(ms[i], host.guess, u, req.numGuesses, host.isSpace)[k].word == w
      && (forall t | k < t < |GuessesBy(ms[i], host.guess, u, req.numGuesses, host.isSpace)| ::
            GuessesBy(ms[i], host.guess, u, req.numGuesses, host.isSpace)[t].word != w)
      && (forall j, t | i < j < |ms| && 0 <= t < |GuessesBy(ms[j], host.guess, u, req.numGuesses, host.isSpace)| ::
            GuessesBy(ms[j], host.guess, u, req.numGuesses, host.isSpace)[t].word != w)
    ensures var ms := ModelsToUse(req.models.value, host.models);
      var u := Unknown(req, DictionaryStep(cache, host, req).hits.value);
      var r := HandlePronounce(cache, host, req).response;
      && r.Phonemes? && w in r.phonemes
      && r.phonemes[w] == Guessed(Pronunciation(w, GuessesBy(ms[i], host.guess, u, req.numGuesses, host.isSpace)[k].phonemes, Some(ms[i]), None))
  {
    var found := DictionaryStep(cache, host, req).hits.value;
    var ms := ModelsToUse(req.models.value, host.models);
    var u := Unknown(req, found);
    LaterModelWins(ms, host.guess, u, req.numGuesses, host.isSpace, w, i, k);
    GuessesOverrideHits(cache, host, req);
  }

  /**
   * A request that names models the service does not have fails with the
   * first such model's name, as long as every model before it ran.
   */
  lemma MissingModelReported(cache: Option<Index>, host: Host, req: Pronounce, k: nat)
    requires DictionaryStep(cache, host, req).hits.Success?
    requires NeedsGuess(req, DictionaryStep(cache, host, req).hits.value)
    requires var ms := ModelsToUse(req.models.value, host.models);
      var u := Unknown(req, DictionaryStep(cache, host, req).hits.value);
      && k < |ms| && ms[k] !in host.models
      && forall j | 0 <= j < k :: ModelFault(ms[j], host.models, host.guess, u, req.numGuesses).None?
    ensures HandlePronounce(cache, host, req).response.Error?
    ensures HandlePronounce(cache, host, req).response.error
      == "Missing G2P model " + ModelsToUse(req.models.value, host.models)[k]
  {
    var found := DictionaryStep(cache, host, req).hits.value;
    var ms := ModelsToUse(req.models.value, host.models);
    var u := Unknown(req, found);
    FirstFaultWins(ms, host.models, host.guess, u, req.numGuesses, host.isSpace, k);
    GuessesOverrideHits(cache, host, req);
  }

  /**
   * The error context loses nothing when no word contains a comma:
   * splitting it on commas gives the request words back.
   */
  lemma ErrorContextRecoversWords(req: Pronounce, f: Fault)
    requires |req.words| >= 1
    requires forall k | 0 <= k < |req.words| :: ',' !in req.words[k]
    ensures SplitOn(ErrorFor(req, f).context, ',') == req.words
  {
    SplitOnJoin(req.words, ',');
  }

  /**
   * An empty dictionary list and an empty model list each mean every
   * registered one: naming them all explicitly gives the same outcome.
   */
  lemma EmptyListMeansAll(cache: Option<Index>, host: Host, req: Pronounce)
    requires req.dictionaries == Some([]) && req.models == Some([])
    ensures HandlePronounce(cache, host, req)
      == HandlePronounce(cache, host, req.(dictionaries := Some(Ids(host.dictionaries)), models := Some(host.models)))
  {
    var req' := req.(dictionaries := Some(Ids(host.dictionaries)), models := Some(host.models));
    EmptyDictionaryListMeansAll(cache, host, req, req');
    assert ModelsToUse([], host.models) == ModelsToUse(host.models, host.models);
  }

  /**
   * A request with every field but the words left at its default is
   * answered with an empty id and sessionId and the "default" siteId, and
   * consults every registered dictionary and every registered model.
   */
  lemma DefaultRequest(cache: Option<Index>, host: Host, words: seq<string>)
    ensures var o := HandlePronounce(cache, host, PronounceWords(words));
      && o.response.id == "" && o.response.siteId == "default" && o.response.sessionId == ""
      && o == HandlePronounce(cache, host, Pronounce("", words, "default", "", Some(host.models), Some(Ids(host.dictionaries)), 5))
  {
    var req := PronounceWords(words);
    EmptyListMeansAll(cache, host, req);
    assert req.(dictionaries := Some(Ids(host.dictionaries)), models := Some(host.models))
      == Pronounce("", words, "default", "", Some(host.models), Some(Ids(host.dictionaries)), 5);
  }

  /** The dictionary half: an empty list selects the same files as listing every registered id. */
  lemma EmptyDictionaryListMeansAll(cache: Option<Index>, host: Host, req: Pronounce, req': Pronounce)
    requires req.dictionaries == Some([]) && req'.dictionaries == Some(Ids(host.dictionaries))
    requires req'.words == req.words
    ensures DictionaryStep(cache, host, req) == DictionaryStep(cache, host, req')
  {
    assert DictionaryFilter([], host.dictionaries) == DictionaryFilter(Ids(host.dictionaries), host.dictionaries);
  }
}

=== FILE: scenarios.dfy ===
/**
 * The service's own lookup test, and the guard's duplicate-word quirk, as
 * runs of the model. Each is proved for any dictionary file printed from
 * well-formed entries; the test's concrete dictionary is one instance.
 */
module Scenarios {
  import opened Wrappers
  import opened Sequences
  import opened Text
  import opened Messages
  import opened LineParser
  import opened DictionaryStore
  import opened Guesser
  import opened Resolver

  /** ASCII whitespace, the part of Python's whitespace set these lines use. */
  predicate AsciiSpace(c: char) {
    c == ' ' || c == '\t' || c == '\n' || c == '\r' || c == '\U{000B}' || c == '\U{000C}'
  }

  /** The line `print(*tokens)` writes: the tokens separated by spaces, then a newline. */
  function PrintLine(tokens: seq<string>): string
  {
    Join(tokens, ' ') + "\n"
  }

  /** The line an entry is printed as. */
  function EntryLine(e: DictEntry): string
  {
    PrintLine([e.word] + e.phonemes)
  }

  /** A dictionary file printed one entry per line. */
  function Printed(es: seq<DictEntry>): (lines: seq<string>)
    ensures |lines| == |es|
  {
    seq(|es|, k requires 0 <= k < |es| => EntryLine(es[k]))
  }

  /** The dictionary pronunciation an entry of file `id` becomes. */
  function FromFile(id: string, e: DictEntry): Pronunciation
  {
    Pronunciation(e.word, e.phonemes, None, Some(id))
  }

  /** Each entry as a pronunciation of file `id`, in order. */
  function Tagged(id: string, es: seq<DictEntry>): (ps: seq<Pronunciation>)
    ensures |ps| == |es|
  {
    seq(|es|, k requires 0 <= k < |es| => FromFile(id, es[k]))
  }

  /** Every entry survives being printed, and the whitespace set covers what printing writes. */
  predicate PrintableWith(es: seq<DictEntry>, isSpace: char -> bool) {
    && isSpace(' ') && isSpace('\t') && isSpace('\n')
    && forall k | 0 <= k < |es| :: Renderable(es[k], isSpace)
  }

  /** No two entries share a word. */
  predicate DistinctWords(es: seq<DictEntry>) {
    forall a, b | 0 <= a < b < |es| :: es[a].word != es[b].word
  }

  /** A printed entry line in front of other lines contributes its entry in front of theirs. */
  lemma PrintedLineFirst(id: string, e: DictEntry, rest: seq<string>, isSpace: char -> bool)
    requires isSpace(' ') && isSpace('\t') && isSpace('\n')
    requires Renderable(e, isSpace)
    ensures FilePronunciations(id, [EntryLine(e)] + rest, isSpace)
      == [FromFile(id, e)] + FilePronunciations(id, rest, isSpace)
  {
    var line := EntryLine(e);
    var lines := [line] + rest;
    assert lines[0] == line && lines[1..] == rest;
    EntryLineReadsBack(id, e, isSpace);
  }

  /** A printed entry line is read back as its one entry. */
  lemma EntryLineReadsBack(id: string, e: DictEntry, isSpace: char -> bool)
    requires isSpace(' ') && isSpace('\t') && isSpace('\n')
    requires Renderable(e, isSpace)
    ensures LinePronunciations(id, EntryLine(e), isSpace) == [FromFile(id, e)]
  {
    ParseRenderLine(e, "\n", isSpace);
  }

  /** Printing a non-empty list prints its first entry, then the rest. */
  lemma PrintedCons(id: string, es: seq<DictEntry>)
    requires es != []
    ensures Printed(es) == [EntryLine(es[0])] + Printed(es[1..])
    ensures Tagged(id, es) == [FromFile(id, es[0])] + Tagged(id, es[1..])
  {
  }

  /**
   * Round trip for whole files: a file printed from well-formed entries is
   * read back as exactly those entries, in order, tagged with the file.
   */
  lemma {:induction false} PrintedFileReadsBack(id: string, es: seq<DictEntry>, isSpace: char -> bool)
    requires PrintableWith(es, isSpace)
    ensures FilePronunciations(id, Printed(es), isSpace) == Tagged(id, es)
    decreases |es|
  {
    if es == [] {
      assert Printed(es) == [];
    } else {
      var rest := es[1..];
      assert PrintableWith(rest, isSpace) by {
        assert forall k | 0 <= k < |rest| :: rest[k] == es[k + 1];
      }
      PrintedFileReadsBack(id, rest, isSpace);
      PrintedCons(id, es);
      PrintedLineFirst(id, es[0], Printed(rest), isSpace);
    }
  }

  /** A dictionary of one readable file streams exactly that file's entries. */
  lemma OneFileStream(id: string, lines: seq<string>, isSpace: char -> bool)
    ensures Stream([DictionaryFile(id, Readable(lines))], isSpace) == FilePronunciations(id, lines, isSpace)
  {
    var files := [DictionaryFile(id, Readable(lines))];
    assert files[1..] == [];
    assert Stream(files, isSpace) == FilePronunciations(id, lines, isSpace) + [];
  }

  /**
   * The index built from one printed file of entries with distinct words
   * holds, for each entry's word, just that entry.
   */
  lemma PrintedIndex(id: string, es: seq<DictEntry>, k: nat, isSpace: char -> bool)
    requires PrintableWith(es, isSpace) && DistinctWords(es)
    requires k < |es|
    ensures var files := [DictionaryFile(id, Readable(Printed(es)))];
      && BuildIndex(files, isSpace).Success?
      && Get(BuildIndex(files, isSpace).value, es[k].word) == [FromFile(id, es[k])]
  {
    var files := [DictionaryFile(id, Readable(Printed(es)))];
    var ps := Tagged(id, es);
    PrintedFileReadsBack(id, es, isSpace);
    OneFileStream(id, Printed(es), isSpace);
    assert BuildIndex(files, isSpace).Success?;
    BuildIndexGroupsStream(files, isSpace);
    assert forall j | 0 <= j < |ps| && j != k :: ps[j].word != ps[k].word;
    PronunciationsOfSingle(ps, k);
  }

  /** A request for two different words, each with one allowed entry in the index, finds just those entries. */
  lemma GatherTwo(index: Index, w1: string, w2: string, ids: set<string>, p1: Pronunciation, p2: Pronunciation)
    requires w1 != w2
    requires Get(index, w1) == [p1] && Get(index, w2) == [p2]
    requires p1.dictionaryId.Some? && p1.dictionaryId.value in ids
    requires p2.dictionaryId.Some? && p2.dictionaryId.value in ids
    ensures Gather(index, [w1, w2], ids) == map[w1 := [p1], w2 := [p2]]
  {
    var words := [w1, w2];
    assert Matching([p1], ids) == [p1];
    assert Matching([p2], ids) == [p2];
    assert words[1..][1..] == [];
    assert Count(words, w1) == 1 && Count(words, w2) == 1;
    assert Repeat([p1], 0) == [] && Repeat([p2], 0) == [];
    assert Repeat([p1], 1) == [p1] + [] && Repeat([p2], 1) == [p2] + [];
  }

  /** The dictionary step of a lookup with an empty cache: it builds the index and finds the two entries. */
  lemma FreshLookupTwo(files: seq<DictionaryFile>, w1: string, w2: string, p1: Pronunciation, p2: Pronunciation,
                       isSpace: char -> bool)
    requires w1 != w2
    requires BuildIndex(files, isSpace).Success?
    requires Get(BuildIndex(files, isSpace).value, w1) == [p1] && Get(BuildIndex(files, isSpace).value, w2) == [p2]
    requires p1.dictionaryId.Some? && p1.dictionaryId.value in Ids(files)
    requires p2.dictionaryId.Some? && p2.dictionaryId.value in Ids(files)
    ensures LookupWords(None, files, [w1, w2], [], isSpace)
      == Lookup(Some(BuildIndex(files, isSpace).value), Success(map[w1 := [p1], w2 := [p2]]))
  {
    var index := BuildIndex(files, isSpace).value;
    var ids := DictionaryFilter([], files);
    assert Elements(Ids(files)) == ids;
    GatherTwo(index, w1, w2, ids, p1, p2);
  }

  /** When the guard stays closed, the reply is the dictionary hits alone. */
  lemma DictionaryAnswers(cache: Option<Index>, host: Host, req: Pronounce, next: Option<Index>, found: Index)
    requires DictionaryStep(cache, host, req) == Lookup(next, Success(found))
    requires !NeedsGuess(req, found)
    ensures HandlePronounce(cache, host, req) == Outcome(next, PhonemesFor(req, Merge(found, map[])))
  {
  }

  /** Two dictionary hits and no guesses make a reply of two listed words. */
  lemma MergeTwo(w1: string, w2: string, p1: Pronunciation, p2: Pronunciation)
    requires w1 != w2
    ensures |map[w1 := [p1], w2 := [p2]]| == 2
    ensures Merge(map[w1 := [p1], w2 := [p2]], map[]) == map[w1 := Listed([p1]), w2 := Listed([p2])]
  {
  }

  /**
   * Looking up two different words, each with one entry in the freshly
   * built index, with an empty cache, default request fields and no models,
   * answers with exactly those entries and caches the index.
   */
  lemma LookupTwo(files: seq<DictionaryFile>, w1: string, w2: string, p1: Pronunciation, p2: Pronunciation,
                  tool: Tool, isSpace: char -> bool)
    requires w1 != w2
    requires BuildIndex(files, isSpace).Success?
    requires Get(BuildIndex(files, isSpace).value, w1) == [p1] && Get(BuildIndex(files, isSpace).value, w2) == [p2]
    requires p1.dictionaryId.Some? && p1.dictionaryId.value in Ids(files)
    requires p2.dictionaryId.Some? && p2.dictionaryId.value in Ids(files)
    ensures HandlePronounce(None, Host([], files, tool, isSpace), PronounceWords([w1, w2]))
      == Outcome(Some(BuildIndex(files, isSpace).value),
                 Phonemes(map[w1 := Listed([p1]), w2 := Listed([p2])], "", DefaultSiteId, ""))
  {
    var host := Host([], files, tool, isSpace);
    var req := PronounceWords([w1, w2]);
    var index := BuildIndex(files, isSpace).value;
    var found := map[w1 := [p1], w2 := [p2]];
    FreshLookupTwo(files, w1, w2, p1, p2, isSpace);
    assert DictionaryStep(None, host, req) == Lookup(Some(index), Success(found));
    MergeTwo(w1, w2, p1, p2);
    assert !NeedsGuess(req, found);
    DictionaryAnswers(None, host, req, Some(index), found);
  }

  /**
   * The test, for any printed dictionary of entries with distinct words:
   * looking up two of its words with an empty cache, default request fields
   * and no models gives exactly those two words, each with its single
   * dictionary pronunciation, and caches the index.
   */
  lemma LookupPrinted(id: string, es: seq<DictEntry>, i: nat, j: nat, tool: Tool, isSpace: char -> bool)
    requires PrintableWith(es, isSpace) && DistinctWords(es)
    requires i < |es| && j < |es| && i != j
    ensures var o := HandlePronounce(None, Host([], [DictionaryFile(id, Readable(Printed(es)))], tool, isSpace),
                                     PronounceWords([es[i].word, es[j].word]));
      && o.response == Phonemes(map[es[i].word := Listed([FromFile(id, es[i])]), es[j].word := Listed([FromFile(id, es[j])])],
                                "", DefaultSiteId, "")
      && o.cache.Some?
  {
    var files := [DictionaryFile(id, Readable(Printed(es)))];
    PrintedIndex(id, es, i, isSpace);
    PrintedIndex(id, es, j, isSpace);
    assert Ids(files)[0] == id;
    assert es[i].word != es[j].word;
    LookupTwo(files, es[i].word, es[j].word, FromFile(id, es[i]), FromFile(id, es[j]), tool, isSpace);
  }

  /** The dictionary of the service's test: `foo`, `bar` and `baz`, one printed line each. */
  function TestEntries(): seq<DictEntry>
  {
    [DictEntry("foo", ["F", "O", "O"]), DictEntry("bar", ["B", "A", "R"]), DictEntry("baz", ["B", "A", "Z"])]
  }

  /**
   * The service's lookup test: requesting `foo` and `bar` from the test
   * dictionary gives exactly two keys, and `foo` maps to its one
   * pronunciation `F O O`, with no model id.
   */
  lemma LookupFooBar(id: string, tool: Tool)
    ensures var o := HandlePronounce(None, Host([], [DictionaryFile(id, Readable(Printed(TestEntries())))], tool, AsciiSpace),
                                     PronounceWords(["foo", "bar"]));
      && o.response.Phonemes?
      && o.response.phonemes.Keys == {"foo", "bar"}
      && |o.response.phonemes| == 2
      && o.response.phonemes["foo"] == Listed([Pronunciation("foo", ["F", "O", "O"], None, Some(id))])
  {
    TestEntriesPrintable();
    LookupPrintedKeys(id, TestEntries(), 0, 1, tool, AsciiSpace);
  }

  /** The keys and first value of the reply `LookupPrinted` describes. */
  lemma LookupPrintedKeys(id: string, es: seq<DictEntry>, i: nat, j: nat, tool: Tool, isSpace: char -> bool)
    requires PrintableWith(es, isSpace) && DistinctWords(es)
    requires i < |es| && j < |es| && i != j
    ensures var o := HandlePronounce(None, Host([], [DictionaryFile(id, Readable(Printed(es)))], tool, isSpace),
                                     PronounceWords([es[i].word, es[j].word]));
      && o.response.Phonemes?
      && o.response.phonemes.Keys == {es[i].word, es[j].word}
      && |o.response.phonemes| == 2
      && o.response.phonemes[es[i].word] == Listed([FromFile(id, es[i])])
  {
    LookupPrinted(id, es, i, j, tool, isSpace);
    assert es[i].word != es[j].word;
  }

  /** The test dictionary prints cleanly and has no word twice. */
  lemma TestEntriesPrintable()
    ensures PrintableWith(TestEntries(), AsciiSpace) && DistinctWords(TestEntries())
  {
    FooPrintable();
    BarPrintable();
    BazPrintable();
  }

  lemma FooPrintable()
    ensures Renderable(TestEntries()[0], AsciiSpace)
  {
  }

  lemma BarPrintable()
    ensures Renderable(TestEntries()[1], AsciiSpace)
  {
  }

  lemma BazPrintable()
    ensures Renderable(TestEntries()[2], AsciiSpace)
  {
  }

  /** A word requested twice with one allowed entry in the index is found with that entry once per request. */
  lemma GatherTwice(index: Index, w: string, ids: set<string>, p: Pronunciation)
    requires Get(index, w) == [p]
    requires p.dictionaryId.Some? && p.dictionaryId.value in ids
    ensures Gather(index, [w, w], ids) == map[w := [p, p]]
  {
    var words := [w, w];
    assert Matching([p], ids) == [p];
    assert words[1..] == [w] && words[1..][1..] == [];
    assert Count([w], w) == 1;
    assert Count(words, w) == 2;
    assert Repeat([p], 0) == [];
    assert Repeat([p], 1) == [p];
    assert Repeat([p], 2) == [p, p];
    var r := Gather(index, words, ids);
    assert r.Keys == {w};
  }

  /** A guess printed as one line reads back as that guess. */
  lemma GuessLineOf(w: string, guessed: seq<string>, isSpace: char -> bool)
    requires isSpace(' ')
    requires w != [] && NoneSatisfy(w, isSpace)
    requires forall k | 0 <= k < |guessed| :: guessed[k] != [] && NoneSatisfy(guessed[k], isSpace)
    ensures ParseGuessLine(Join([w] + guessed, ' '), isSpace) == Some(Guess(w, guessed))
  {
    var line := Join([w] + guessed, ' ');
    var g := Guess(w, guessed);
    assert AllSatisfy("", isSpace);
    ParseGuessLineRender(g, "", isSpace);
    assert [g.word] + g.phonemes == [w] + guessed;
    assert line + "" == line;
  }

  /** Output of a single line gives that line's guess alone. */
  lemma GuessesOfOne(line: string, g: Guess, isSpace: char -> bool)
    requires ParseGuessLine(line, isSpace) == Some(g)
    ensures GuessesOf([line], isSpace) == [g]
  {
    assert [line][1..] == [];
  }

  /** A tool that prints one guess line for one model gives that model's single guess. */
  lemma GuessOne(m: string, tool: Tool, words: set<string>, n: int, line: string, g: Guess, isSpace: char -> bool)
    requires GuessesOf([line], isSpace) == [g]
    requires tool(m, words, n) == ToolOutput([line])
    ensures GuessWords([], [m], tool, words, n, isSpace) == Success([(g.word, Pronunciation(g.word, g.phonemes, Some(m), None))])
  {
    var pair := (g.word, Pronunciation(g.word, g.phonemes, Some(m), None));
    assert ModelsToUse([], [m]) == [m];
    assert ModelFault(m, [m], tool, words, n) == None;
    assert [m][1..] == [];
    assert GuessWith([], [m], tool, words, n, isSpace) == Success([]);
    assert PairsOf(m, [g]) == [pair];
    assert GuessWith([m], [m], tool, words, n, isSpace) == Success([pair] + []);
    assert [pair] + [] == [pair];
  }

  /** A guess for the only hit replaces it. */
  lemma MergeOverride(w: string, hits: seq<Pronunciation>, pron: Pronunciation)
    ensures Merge(map[w := hits], map[w := pron]) == map[w := Guessed(pron)]
  {
  }

  /** When the guard opens and every model runs, the reply merges the hits with the last guess per word. */
  lemma GuessedAnswers(cache: Option<Index>, host: Host, req: Pronounce, next: Option<Index>, found: Index,
                       pairs: seq<(string, Pronunciation)>)
    requires DictionaryStep(cache, host, req) == Lookup(next, Success(found))
    requires NeedsGuess(req, found)
    requires GuessWords(req.models.value, host.models, host.guess, Unknown(req, found), req.numGuesses, host.isSpace)
      == Success(pairs)
    ensures HandlePronounce(cache, host, req) == Outcome(next, PhonemesFor(req, Merge(found, LastWins(pairs))))
  {
  }

  /** The dictionary step of a lookup with an empty cache for one word requested twice. */
  lemma FreshLookupTwice(files: seq<DictionaryFile>, w: string, p: Pronunciation, isSpace: char -> bool)
    requires BuildIndex(files, isSpace).Success?
    requires Get(BuildIndex(files, isSpace).value, w) == [p]
    requires p.dictionaryId.Some? && p.dictionaryId.value in Ids(files)
    ensures LookupWords(None, files, [w, w], [], isSpace)
      == Lookup(Some(BuildIndex(files, isSpace).value), Success(map[w := [p, p]]))
  {
    var ids := DictionaryFilter([], files);
    assert Elements(Ids(files)) == ids;
    GatherTwice(BuildIndex(files, isSpace).value, w, ids, p);
  }

  /**
   * The quirk over any dictionary files: one word with one entry, requested
   * twice, with one model whose tool prints a guess for it. A real
   * phonetisaurus run prints nothing for an empty word list, so this tool
   * is a stand-in that shows what the reply would take from any output;
   * `DuplicateSilentTool` is the realistic case.
   */
  lemma DuplicateLookup(files: seq<DictionaryFile>, w: string, p: Pronunciation, m: string, line: string, g: Guess,
                        tool: Tool, isSpace: char -> bool)
    requires BuildIndex(files, isSpace).Success?
    requires Get(BuildIndex(files, isSpace).value, w) == [p]
    requires p.dictionaryId.Some? && p.dictionaryId.value in Ids(files)
    requires g.word == w && GuessesOf([line], isSpace) == [g]
    requires tool(m, {}, DefaultNumGuesses) == ToolOutput([line])
    ensures var host := Host([m], files, tool, isSpace);
      var req := PronounceWords([w, w]);
      && DictionaryStep(None, host, req).hits == Success(map[w := [p, p]])
      && NeedsGuess(req, map[w := [p, p]])
      && Unknown(req, map[w := [p, p]]) == {}
      && HandlePronounce(None, host, req).response
         == Phonemes(map[w := Guessed(Pronunciation(w, g.phonemes, Some(m), None))], "", DefaultSiteId, "")
  {
    var host := Host([m], files, tool, isSpace);
    var req := PronounceWords([w, w]);
    var found := map[w := [p, p]];
    FreshLookupTwice(files, w, p, isSpace);
    assert DictionaryStep(None, host, req) == Lookup(Some(BuildIndex(files, isSpace).value), Success(found));
    assert |found| == 1;
    assert Unknown(req, found) == {};
    var pron := Pronunciation(w, g.phonemes, Some(m), None);
    GuessOne(m, tool, {}, DefaultNumGuesses, line, g, isSpace);
    assert LastWins([(w, pron)]) == map[w := pron];
    GuessedAnswers(None, host, req, Some(BuildIndex(files, isSpace).value), found, [(w, pron)]);
    MergeOverride(w, [p, p], pron);
  }

  /**
   * A word requested twice and found in the dictionary still opens the
   * guard, because the hit count is compared with the request length,
   * duplicates included. The guesser then runs over an empty word list,
   * and a guess it prints for the word overrides the dictionary hit.
   */
  lemma DuplicateWordConsultsGuesser(id: string, e: DictEntry, m: string, guessed: seq<string>, tool: Tool, isSpace: char -> bool)
    requires PrintableWith([e], isSpace)
    requires forall k | 0 <= k < |guessed| :: guessed[k] != [] && NoneSatisfy(guessed[k], isSpace)
    requires tool(m, {}, DefaultNumGuesses) == ToolOutput([Join([e.word] + guessed, ' ')])
    ensures var host := Host([m], [DictionaryFile(id, Readable(Printed([e])))], tool, isSpace);
      var req := PronounceWords([e.word, e.word]);
      && DictionaryStep(None, host, req).hits == Success(map[e.word := [FromFile(id, e), FromFile(id, e)]])
      && NeedsGuess(req, DictionaryStep(None, host, req).hits.value)
      && Unknown(req, DictionaryStep(None, host, req).hits.value) == {}
      && HandlePronounce(None, host, req).response
         == Phonemes(map[e.word := Guessed(Pronunciation(e.word, guessed, Some(m), None))], "", DefaultSiteId, "")
  {
    var files := [DictionaryFile(id, Readable(Printed([e])))];
    assert DistinctWords([e]);
    PrintedIndex(id, [e], 0, isSpace);
    assert Ids(files)[0] == id;
    assert Renderable([e][0], isSpace);
    var line := Join([e.word] + guessed, ' ');
    GuessLineOf(e.word, guessed, isSpace);
    GuessesOfOne(line, Guess(e.word, guessed), isSpace);
    DuplicateLookup(files, e.word, FromFile(id, e), m, line, Guess(e.word, guessed), tool, isSpace);
  }

  /** A tool that prints nothing makes a model contribute no pairs. */
  lemma SilentModel(m: string, tool: Tool, words: set<string>, n: int, isSpace: char -> bool)
    requires tool(m, words, n) == ToolOutput([])
    ensures GuessWords([], [m], tool, words, n, isSpace) == Success([])
  {
    assert ModelsToUse([], [m]) == [m];
    assert ModelFault(m, [m], tool, words, n) == None;
    assert GuessesBy(m, tool, words, n, isSpace) == [];
    assert [m][1..] == [];
    assert GuessWith([m], [m], tool, words, n, isSpace) == Success(PairsOf(m, []) + []);
  }

  /**
   * The quirk with a tool that, like phonetisaurus, prints nothing for an
   * empty word list: a word with one entry requested twice still opens the
   * guard, the guesser adds nothing, and the reply lists the entry twice.
   */
  lemma DuplicateSilentTool(files: seq<DictionaryFile>, w: string, p: Pronunciation, m: string,
                            tool: Tool, isSpace: char -> bool)
    requires BuildIndex(files, isSpace).Success?
    requires Get(BuildIndex(files, isSpace).value, w) == [p]
    requires p.dictionaryId.Some? && p.dictionaryId.value in Ids(files)
    requires tool(m, {}, DefaultNumGuesses) == ToolOutput([])
    ensures HandlePronounce(None, Host([m], files, tool, isSpace), PronounceWords([w, w])).response
      == Phonemes(map[w := Listed([p, p])], "", DefaultSiteId, "")
  {
    var host := Host([m], files, tool, isSpace);
    var req := PronounceWords([w, w]);
    var found := map[w := [p, p]];
    FreshLookupTwice(files, w, p, isSpace);
    assert DictionaryStep(None, host, req) == Lookup(Some(BuildIndex(files, isSpace).value), Success(found));
    assert |found| == 1;
    assert Unknown(req, found) == {};
    SilentModel(m, tool, {}, DefaultNumGuesses, isSpace);
    assert LastWins<Pronunciation>([]) == map[];
    GuessedAnswers(None, host, req, Some(BuildIndex(files, isSpace).value), found, []);
    assert Merge(found, map[]) == map[w := Listed([p, p])];
  }

  /**
   * Because the guard opens for a duplicated word, a request whose words are
   * all in the dictionary still fails when it names a model the service does
   * not have.
   */
  lemma DuplicateMissingModel(files: seq<DictionaryFile>, w: string, p: Pronunciation, m: string,
                              tool: Tool, isSpace: char -> bool)
    requires BuildIndex(files, isSpace).Success?
    requires Get(BuildIndex(files, isSpace).value, w) == [p]
    requires p.dictionaryId.Some? && p.dictionaryId.value in Ids(files)
    ensures var r := HandlePronounce(None, Host([], files, tool, isSpace), PronounceWords([w, w]).(models := Some([m]))).response;
      r.Error? && r.error == "Missing G2P model " + m
  {
    var host := Host([], files, tool, isSpace);
    var req := PronounceWords([w, w]).(models := Some([m]));
    var found := map[w := [p, p]];
    FreshLookupTwice(files, w, p, isSpace);
    assert DictionaryStep(None, host, req) == Lookup(Some(BuildIndex(files, isSpace).value), Success(found));
    assert |found| == 1;
    assert ModelsToUse([m], []) == [m];
    MissingModelReported(None, host, req, 0);
  }
}

=== FILE: sequences.dfy ===
/** Counting and repetition over sequences, used to state multiplicities. */
module Sequences {

  /** Number of occurrences of `x` in `s`. */
  function Count<T(==)>(s: seq<T>, x: T): (n: nat)
    ensures n <= |s|
    ensures n == 0 <==> x !in s
  {
    if s == [] then 0 else (if s[0] == x then 1 else 0) + Count(s[1..], x)
  }

  /** Concatenation is associative. */
  lemma AppendAssoc<T>(a: seq<T>, b: seq<T>, c: seq<T>)
    ensures (a + b) + c == a + (b + c)
  {
  }

  /** `n` copies of `s` laid end to end. */
  function Repeat<T>(s: seq<T>, n: nat): seq<T>
  {
    if n == 0 then [] else s + Repeat(s, n - 1)
  }

  /** The elements of `s` as a set, as Python's `set(s)`. */
  function Elements<T>(s: seq<T>): set<T>
  {
    set x | x in s
  }

  predicate Distinct<T(==)>(s: seq<T>) {
    forall i, j | 0 <= i < j < |s| :: s[i] != s[j]
  }

  /** A sequence without repeats has as many elements as its set. */
  lemma {:induction false} DistinctCardinality<T>(s: seq<T>)
    requires Distinct(s)
    ensures |Elements(s)| == |s|
    decreases |s|
  {
    if s != [] {
      DistinctCardinality(s[1..]);
      assert Elements(s) == Elements(s[1..]) + {s[0]};
      assert s[0] !in Elements(s[1..]);
    }
  }

  /** A subset is no larger than its superset. */
  lemma {:induction false} SubsetCardinality<T>(a: set<T>, b: set<T>)
    requires a <= b
    ensures |a| <= |b|
    decreases |a|
  {
    if a != {} {
      var x :| x in a;
      SubsetCardinality(a - {x}, b - {x});
    }
  }

  /** A sequence has at least as many elements as its set. */
  lemma {:induction false} ElementsCardinality<T>(s: seq<T>)
    ensures |Elements(s)| <= |s|
    decreases |s|
  {
    if s != [] {
      ElementsCardinality(s[1..]);
      assert Elements(s) == Elements(s[1..]) + {s[0]};
    }
  }
}

=== FILE: site_admission.dfy ===
/** Which requests the service answers, by the siteId they carry. */
module SiteAdmission {
  import opened Wrappers
  import opened Messages

  /** `siteIds or []`: the sites the service was started for; none given means every site. */
  function ConfiguredSites(siteIds: Option<seq<string>>): (sites: seq<string>)
    ensures siteIds.None? ==> sites == []
    ensures siteIds.Some? ==> sites == siteIds.value
  {
    match siteIds
    case None => []
    case Some(s) => s
  }

  /**
   * `_check_siteId`, given the payload's siteId key (None when the key is
   * absent). With no configured sites every payload is admitted; otherwise
   * a payload is admitted exactly when its siteId, "default" when absent,
   * is one of them.
   */
  function CheckSiteId(sites: seq<string>, payloadSiteId: Option<string>): (ok: bool)
    ensures sites == [] ==> ok
    ensures payloadSiteId.None? ==> (ok <==> sites == [] || DefaultSiteId in sites)
    ensures payloadSiteId.Some? ==> (ok <==> sites == [] || payloadSiteId.value in sites)
  {
    if sites != [] then
      var siteId := match payloadSiteId case None => DefaultSiteId case Some(s) => s;
      siteId in sites
    else true
  }

  /**
   * The admission test agrees with the request the payload decodes to: the
   * decoded request's siteId falls back to the same default.
   */
  lemma AdmissionMatchesRequest(sites: seq<string>, payloadSiteId: Option<string>, req: Pronounce)
    requires req.siteId == (if payloadSiteId.Some? then payloadSiteId.value else DefaultSiteId)
    ensures CheckSiteId(sites, payloadSiteId) <==> sites == [] || req.siteId in sites
  {
  }

  /** Configuring more sites never turns away a payload a non-empty list admitted. */
  lemma AdmissionMonotone(sites: seq<string>, more: seq<string>, payloadSiteId: Option<string>)
    requires sites != []
    requires forall k | 0 <= k < |sites| :: sites[k] in more
    requires CheckSiteId(sites, payloadSiteId)
    ensures CheckSiteId(more, payloadSiteId)
  {
  }
}

=== FILE: text.dfy ===
/**
 * The pieces of Python's str and re behaviour the service relies on, over
 * strings as character sequences: str.strip(), re.split on a character class
 * followed by '+', str.find, str.split(sep) and sep.join(...).
 * Which characters str.strip() treats as whitespace is left as a parameter.
 */
module Text {
  import opened Wrappers

  predicate AllSatisfy(s: string, p: char -> bool) {
    forall k | 0 <= k < |s| :: p(s[k])
  }

  predicate NoneSatisfy(s: string, p: char -> bool) {
    forall k | 0 <= k < |s| :: !p(s[k])
  }

  /** The first index at or after `i` whose character does not satisfy `p`, or `|s|`. */
  function SkipWhile(s: string, i: nat, p: char -> bool): (j: nat)
    requires i <= |s|
    ensures i <= j <= |s|
    ensures forall k | i <= k < j :: p(s[k])
    ensures j < |s| ==> !p(s[j])
    decreases |s| - i
  {
    if i == |s| || !p(s[i]) then i else SkipWhile(s, i + 1, p)
  }

  /** The first index at or after `i` whose character satisfies `p`, or `|s|`. */
  function SkipUntil(s: string, i: nat, p: char -> bool): (j: nat)
    requires i <= |s|
    ensures i <= j <= |s|
    ensures forall k | i <= k < j :: !p(s[k])
    ensures j < |s| ==> p(s[j])
    decreases |s| - i
  {
    if i == |s| || p(s[i]) then i else SkipUntil(s, i + 1, p)
  }

  /** The least index `i <= j` such that every character of `s[i..j]` satisfies `p`. */
  function SkipBackWhile(s: string, j: nat, p: char -> bool): (i: nat)
    requires j <= |s|
    ensures i <= j
    ensures forall k | i <= k < j :: p(s[k])
    ensures 0 < i ==> !p(s[i - 1])
    decreases j
  {
    if j == 0 || !p(s[j - 1]) then j else SkipBackWhile(s, j - 1, p)
  }

  /**
   * Python's `s.strip()`: `s` without its leading and trailing whitespace.
   * It is empty exactly when `s` is all whitespace, and otherwise starts and
   * ends with a non-whitespace character.
   */
  function Strip(s: string, isSpace: char -> bool): (r: string)
    ensures |r| <= |s|
    ensures r == [] <==> AllSatisfy(s, isSpace)
    ensures r != [] ==> !isSpace(r[0]) && !isSpace(r[|r| - 1])
    ensures exists i, j | 0 <= i <= j <= |s| ::
      r == s[i..j] && AllSatisfy(s[..i], isSpace) && AllSatisfy(s[j..], isSpace)
  {
    var i := SkipWhile(s, 0, isSpace);
    if i == |s| then
      assert [] == s[i..i] && AllSatisfy(s[..i], isSpace) && AllSatisfy(s[i..], isSpace);
      []
    else
      var j := SkipBackWhile(s, |s|, isSpace);
      assert AllSatisfy(s[..i], isSpace) && AllSatisfy(s[j..], isSpace);
      s[i..j]
  }

  /**
   * Python's `re.split("[<sep>]+", s)`: the pieces of `s` between maximal runs
   * of separator characters. A leading or trailing run yields an empty first
   * or last piece.
   */
  function SplitRuns(s: string, sep: char -> bool): (r: seq<string>)
    ensures |r| >= 1
    ensures forall k | 0 <= k < |r| :: NoneSatisfy(r[k], sep)
  {
    SplitFrom(s, 0, sep)
  }

  /** The pieces of `s[start..]`, where `start` is 0 or just past a separator run. */
  function SplitFrom(s: string, start: nat, sep: char -> bool): (r: seq<string>)
    requires start <= |s|
    ensures |r| >= 1
    ensures forall k | 0 <= k < |r| :: NoneSatisfy(r[k], sep)
    decreases |s| - start
  {
    var i := SkipUntil(s, start, sep);
    if i == |s| then [s[start..]]
    else [s[start..i]] + SplitFrom(s, SkipWhile(s, i, sep), sep)
  }

  /**
   * When the text neither starts nor ends with a separator, no piece of the
   * split is empty: every piece has a first character.
   */
  lemma {:induction false} SplitFromPiecesNonEmpty(s: string, start: nat, sep: char -> bool)
    requires start < |s| && !sep(s[start]) && !sep(s[|s| - 1])
    ensures forall k | 0 <= k < |SplitFrom(s, start, sep)| :: SplitFrom(s, start, sep)[k] != []
    decreases |s| - start
  {
    var i := SkipUntil(s, start, sep);
    if i < |s| {
      var j := SkipWhile(s, i, sep);
      SplitFromPiecesNonEmpty(s, j, sep);
    }
  }

  lemma SplitRunsPiecesNonEmpty(s: string, sep: char -> bool)
    requires s != [] && !sep(s[0]) && !sep(s[|s| - 1])
    ensures forall k | 0 <= k < |SplitRuns(s, sep)| :: SplitRuns(s, sep)[k] != []
  {
    SplitFromPiecesNonEmpty(s, 0, sep);
  }

  /** `s` with every character satisfying `p` removed. */
  function Without(s: string, p: char -> bool): (r: string)
    ensures NoneSatisfy(r, p)
    ensures |r| <= |s|
  {
    if s == [] then []
    else (if p(s[0]) then [] else [s[0]]) + Without(s[1..], p)
  }

  /** All strings of `ss` laid end to end. */
  function Concat(ss: seq<string>): string
  {
    if ss == [] then [] else ss[0] + Concat(ss[1..])
  }

  lemma {:induction false} WithoutAppend(a: string, b: string, p: char -> bool)
    ensures Without(a + b, p) == Without(a, p) + Without(b, p)
    decreases |a|
  {
    if a == [] {
      assert a + b == b;
    } else {
      assert (a + b)[1..] == a[1..] + b;
      WithoutAppend(a[1..], b, p);
    }
  }

  lemma {:induction false} WithoutNone(s: string, p: char -> bool)
    requires NoneSatisfy(s, p)
    ensures Without(s, p) == s
    decreases |s|
  {
    if s != [] {
      WithoutNone(s[1..], p);
    }
  }

  lemma {:induction false} WithoutAll(s: string, p: char -> bool)
    requires AllSatisfy(s, p)
    ensures Without(s, p) == []
    decreases |s|
  {
    if s != [] {
      WithoutAll(s[1..], p);
    }
  }


  lemma ConcatCons(a: string, ss: seq<string>)
    ensures Concat([a] + ss) == a + Concat(ss)
  {
    assert ([a] + ss)[1..] == ss;
  }

  /** Splitting on separator runs loses exactly the separators: the pieces, laid end to end, are the text without them. */
  lemma {:induction false} SplitFromKeepsText(s: string, start: nat, sep: char -> bool)
    requires start <= |s|
    ensures Concat(SplitFrom(s, start, sep)) == Without(s[start..], sep)
    decreases |s| - start
  {
    var i := SkipUntil(s, start, sep);
    if i == |s| {
      WithoutNone(s[start..], sep);
      assert Concat([s[start..]]) == s[start..] + Concat([]);
    } else {
      var j := SkipWhile(s, i, sep);
      var word, run := s[start..i], s[i..j];
      SliceThree(s, start, i, j);
      WithoutAppend(word, run + s[j..], sep);
      WithoutAppend(run, s[j..], sep);
      WithoutNone(word, sep);
      WithoutAll(run, sep);
      ConcatCons(word, SplitFrom(s, j, sep));
      SplitFromKeepsText(s, j, sep);
    }
  }

  /** A suffix cut at two further points. */
  lemma SliceThree(s: string, start: nat, i: nat, j: nat)
    requires start <= i <= j <= |s|
    ensures s[start..] == s[start..i] + (s[i..j] + s[j..])
  {
    assert s[i..] == s[i..j] + s[j..];
    assert s[start..] == s[start..i] + s[i..];
  }

  lemma SplitRunsKeepsText(s: string, sep: char -> bool)
    ensures Concat(SplitRuns(s, sep)) == Without(s, sep)
  {
    SplitFromKeepsText(s, 0, sep);
    assert s[0..] == s;
  }

  /** Python's `s.find(c)` as an option: the index of the first `c` in `s`. */
  function IndexOf(s: string, c: char): (r: Option<nat>)
    ensures r.None? <==> c !in s
    ensures r.Some? ==> r.value < |s| && s[r.value] == c && c !in s[..r.value]
  {
    if s == [] then None
    else if s[0] == c then Some(0)
    else
      match IndexOf(s[1..], c)
      case None => None
      case Some(i) =>
        assert s[..i + 1] == [s[0]] + s[1..][..i];
        Some(i + 1)
  }

  /** Python's `s.split(c)` for a one-character separator `c`: empty pieces are kept. */
  function SplitOn(s: string, c: char): (r: seq<string>)
    ensures |r| >= 1
    ensures forall k | 0 <= k < |r| :: c !in r[k]
    decreases |s|
  {
    match IndexOf(s, c)
    case None => [s]
    case Some(i) => [s[..i]] + SplitOn(s[i + 1..], c)
  }

  /** Python's `c.join(pieces)` for a one-character separator `c`. */
  function Join(pieces: seq<string>, c: char): string
  {
    if |pieces| == 0 then []
    else if |pieces| == 1 then pieces[0]
    else pieces[0] + [c] + Join(pieces[1..], c)
  }

  /** Joining the pieces of a split restores the string. */
  lemma {:induction false} JoinSplitOn(s: string, c: char)
    ensures Join(SplitOn(s, c), c) == s
    decreases |s|
  {
    match IndexOf(s, c)
    case None =>
    case Some(i) =>
      var rest := SplitOn(s[i + 1..], c);
      JoinSplitOn(s[i + 1..], c);
      assert SplitOn(s, c) == [s[..i]] + rest;
      assert ([s[..i]] + rest)[1..] == rest;
      assert s == s[..i] + [c] + s[i + 1..];
  }

  /** Splitting a join of separator-free pieces gives the pieces back. */
  lemma {:induction false} SplitOnJoin(pieces: seq<string>, c: char)
    requires |pieces| >= 1
    requires forall k | 0 <= k < |pieces| :: c !in pieces[k]
    ensures SplitOn(Join(pieces, c), c) == pieces
    decreases |pieces|
  {
    if |pieces| > 1 {
      var a, tail := pieces[0], pieces[1..];
      var b := Join(tail, c);
      var s := a + [c] + b;
      assert Join(pieces, c) == s;
      IndexOfAfter(a, c, b);
      assert s[..|a|] == a;
      assert s[|a| + 1..] == b;
      assert SplitOn(s, c) == [a] + SplitOn(b, c);
      SplitOnJoin(tail, c);
      assert pieces == [a] + tail;
    }
  }

  /** A join has no character satisfying `p` when neither its pieces nor its separator do. */
  lemma {:induction false} JoinAvoids(pieces: seq<string>, c: char, p: char -> bool)
    requires !p(c)
    requires forall k | 0 <= k < |pieces| :: NoneSatisfy(pieces[k], p)
    ensures NoneSatisfy(Join(pieces, c), p)
    decreases |pieces|
  {
    if |pieces| > 1 {
      JoinAvoids(pieces[1..], c, p);
      var a, b := pieces[0], Join(pieces[1..], c);
      assert Join(pieces, c) == a + [c] + b;
      assert forall k | 0 <= k < |b| :: (a + [c] + b)[|a| + 1 + k] == b[k];
    }
  }

  /** The first `c` of `a + [c] + b` is the one after `a` when `a` has none. */
  lemma IndexOfAfter(a: string, c: char, b: string)
    requires c !in a
    ensures IndexOf(a + [c] + b, c) == Some(|a|)
  {
    var s := a + [c] + b;
    assert s[|a|] == c;
    assert forall j | 0 <= j < |a| :: s[j] == a[j];
  }

  /** The ends of a join are the outer ends of its first and last pieces. */
  lemma {:induction false} JoinEnds(pieces: seq<string>, c: char)
    requires |pieces| >= 1
    requires forall k | 0 <= k < |pieces| :: pieces[k] != []
    ensures Join(pieces, c) != []
    ensures Join(pieces, c)[0] == pieces[0][0]
    ensures Join(pieces, c)[|Join(pieces, c)| - 1] == pieces[|pieces| - 1][|pieces[|pieces| - 1]| - 1]
    decreases |pieces|
  {
    if |pieces| > 1 {
      JoinEnds(pieces[1..], c);
    }
  }

  /** A separator-free tail is split off as one last piece. */
  lemma SplitFromLast(s: string, start: nat, a: string, sep: char -> bool)
    requires start <= |s| && s[start..] == a
    requires NoneSatisfy(a, sep)
    ensures SplitFrom(s, start, sep) == [a]
  {
    assert forall k | 0 <= k < |a| :: s[start + k] == s[start..][k];
    assert SkipUntil(s, start, sep) == |s|;
  }


  /**
   * Pieces with a gap between each neighbouring pair:
   * `pieces[0] + gaps[0] + pieces[1] + ... + pieces[|pieces| - 1]`.
   */
  function Interleave(pieces: seq<string>, gaps: seq<string>): string
    requires |pieces| >= 1 && |gaps| == |pieces| - 1
    decreases |pieces|
  {
    if |pieces| == 1 then pieces[0]
    else pieces[0] + gaps[0] + Interleave(pieces[1..], gaps[1..])
  }

  /** The ends of an interleaving are the outer ends of its first and last pieces. */
  lemma {:induction false} InterleaveEnds(pieces: seq<string>, gaps: seq<string>)
    requires |pieces| >= 1 && |gaps| == |pieces| - 1
    requires forall k | 0 <= k < |pieces| :: pieces[k] != []
    ensures Interleave(pieces, gaps) != []
    ensures Interleave(pieces, gaps)[0] == pieces[0][0]
    ensures Interleave(pieces, gaps)[|Interleave(pieces, gaps)| - 1] == pieces[|pieces| - 1][|pieces[|pieces| - 1]| - 1]
    decreases |pieces|
  {
    if |pieces| > 1 {
      InterleaveEnds(pieces[1..], gaps[1..]);
    }
  }

  /** A piece, a non-empty separator run and a tail that does not start with a separator: the scan stops and resumes around that run. */
  lemma SplitFromRunStep(s: string, start: nat, j: nat, a: string, gap: string, rest: string, sep: char -> bool)
    requires start <= |s| && s[start..] == a + gap + rest
    requires j == start + |a| + |gap|
    requires NoneSatisfy(a, sep)
    requires gap != [] && AllSatisfy(gap, sep)
    requires rest != [] && !sep(rest[0])
    ensures j <= |s| && s[j..] == rest
    ensures SplitFrom(s, start, sep) == [a] + SplitFrom(s, j, sep)
  {
    var t := s[start..];
    var i := start + |a|;
    forall k | start <= k < i ensures !sep(s[k]) {
      assert s[k] == t[k - start] == a[k - start];
    }
    forall k | i <= k < j ensures sep(s[k]) {
      assert s[k] == t[k - start] == gap[k - i];
    }
    assert s[j] == t[j - start] == rest[0];
    SkipUntilAt(s, start, i, sep);
    SkipWhileAt(s, i, j, sep);
    assert s[start..i] == t[..|a|] == a;
    assert s[j..] == t[|a| + |gap|..] == rest;
  }

  /** `SkipUntil` from `i` stops at `j` when `s[j]` is the first character from `i` on that satisfies `p`. */
  lemma {:induction false} SkipUntilAt(s: string, i: nat, j: nat, p: char -> bool)
    requires i <= j < |s| && p(s[j])
    requires forall k | i <= k < j :: !p(s[k])
    ensures SkipUntil(s, i, p) == j
    decreases j - i
  {
    if i < j {
      SkipUntilAt(s, i + 1, j, p);
    }
  }

  /** `SkipWhile` from `i` stops at `j` when `s[j]` is the first character from `i` on that does not satisfy `p`. */
  lemma {:induction false} SkipWhileAt(s: string, i: nat, j: nat, p: char -> bool)
    requires i <= j < |s| && !p(s[j])
    requires forall k | i <= k < j :: p(s[k])
    ensures SkipWhile(s, i, p) == j
    decreases j - i
  {
    if i < j {
      SkipWhileAt(s, i + 1, j, p);
    }
  }

  /** An interleaving of two or more pieces is its first piece, its first gap and the interleaving of the rest, which starts with a non-separator. */
  lemma InterleaveHead(pieces: seq<string>, gaps: seq<string>, sep: char -> bool)
    requires |pieces| >= 2 && |gaps| == |pieces| - 1
    requires forall k | 0 <= k < |pieces| :: pieces[k] != [] && NoneSatisfy(pieces[k], sep)
    ensures Interleave(pieces, gaps) == pieces[0] + gaps[0] + Interleave(pieces[1..], gaps[1..])
    ensures Interleave(pieces[1..], gaps[1..]) != [] && !sep(Interleave(pieces[1..], gaps[1..])[0])
  {
    var tail := pieces[1..];
    assert tail[0] == pieces[1];
    InterleaveEnds(tail, gaps[1..]);
  }

  /**
   * Splitting on separator runs undoes an interleaving of non-empty,
   * separator-free pieces with non-empty runs of separators.
   */
  lemma {:induction false} SplitFromInterleave(s: string, start: nat, pieces: seq<string>, gaps: seq<string>, sep: char -> bool)
    requires |pieces| >= 1 && |gaps| == |pieces| - 1
    requires start <= |s| && s[start..] == Interleave(pieces, gaps)
    requires forall k | 0 <= k < |pieces| :: pieces[k] != [] && NoneSatisfy(pieces[k], sep)
    requires forall k | 0 <= k < |gaps| :: gaps[k] != [] && AllSatisfy(gaps[k], sep)
    ensures SplitFrom(s, start, sep) == pieces
    decreases |pieces|
  {
    if |pieces| == 1 {
      SplitFromLast(s, start, pieces[0], sep);
      assert pieces == [pieces[0]];
    } else {
      var j := start + |pieces[0]| + |gaps[0]|;
      InterleaveHead(pieces, gaps, sep);
      SplitFromRunStep(s, start, j, pieces[0], gaps[0], Interleave(pieces[1..], gaps[1..]), sep);
      SplitFromInterleave(s, j, pieces[1..], gaps[1..], sep);
      assert pieces == [pieces[0]] + pieces[1..];
    }
  }

  /**
   * `re.split` on separator runs gives back the pieces however long each
   * separator run between them is.
   */
  lemma SplitRunsInterleave(pieces: seq<string>, gaps: seq<string>, sep: char -> bool)
    requires |pieces| >= 1 && |gaps| == |pieces| - 1
    requires forall k | 0 <= k < |pieces| :: pieces[k] != [] && NoneSatisfy(pieces[k], sep)
    requires forall k | 0 <= k < |gaps| :: gaps[k] != [] && AllSatisfy(gaps[k], sep)
    ensures SplitRuns(Interleave(pieces, gaps), sep) == pieces
  {
    var s := Interleave(pieces, gaps);
    assert s[0..] == s;
    SplitFromInterleave(s, 0, pieces, gaps, sep);
  }

  /** Joining with one character is interleaving with one-character gaps. */
  lemma {:induction false} JoinInterleaves(pieces: seq<string>, c: char)
    requires |pieces| >= 1
    ensures Join(pieces, c) == Interleave(pieces, seq(|pieces| - 1, _ => [c]))
    decreases |pieces|
  {
    if |pieces| > 1 {
      JoinInterleaves(pieces[1..], c);
      assert seq(|pieces| - 1, _ => [c])[1..] == seq(|pieces| - 2, _ => [c]);
    }
  }

  /**
   * Splitting on separator runs undoes a join of non-empty, separator-free
   * pieces with one separator character.
   */
  lemma SplitRunsJoin(pieces: seq<string>, c: char, sep: char -> bool)
    requires sep(c)
    requires |pieces| >= 1
    requires forall k | 0 <= k < |pieces| :: pieces[k] != [] && NoneSatisfy(pieces[k], sep)
    ensures SplitRuns(Join(pieces, c), sep) == pieces
  {
    var gaps := seq(|pieces| - 1, _ => [c]);
    JoinInterleaves(pieces, c);
    assert forall k | 0 <= k < |gaps| :: gaps[k] == [c];
    SplitRunsInterleave(pieces, gaps, sep);
  }

  /**
   * Stripping a string that does not start or end in whitespace, followed by
   * whitespace padding, gives the string itself.
   */
  lemma StripPadded(s: string, pad: string, isSpace: char -> bool)
    requires s != [] && !isSpace(s[0]) && !isSpace(s[|s| - 1])
    requires AllSatisfy(pad, isSpace)
    ensures Strip(s + pad, isSpace) == s
  {
    var t := s + pad;
    assert t[0] == s[0];
    assert SkipWhile(t, 0, isSpace) == 0;
    assert t[|s| - 1] == s[|s| - 1];
    assert forall k | |s| <= k < |t| :: isSpace(t[k]) by {
      assert forall k | |s| <= k < |t| :: t[k] == pad[k - |s|];
    }
    assert SkipBackWhile(t, |t|, isSpace) == |s|;
    assert t[..|s|] == s;
  }
}

=== FILE: wrappers.dfy ===
/** Absence and failure values used across the model. */
module Wrappers {

  /** Python's `None` versus a present value. */
  datatype Option<+T> = None | Some(value: T)

  /** A computation that either produced a value or raised. */
  datatype Result<+T, +E> = Success(value: T) | Failure(error: E)
}
